=== FILE: README.md ===
# Field audit capture: the offline outbox

This project models the core of the field-data capture app in `app.js`. An
auditor fills in a form describing a stand (an erf) and its electricity and
water meters. On submit the record is either posted to a webhook or, when
there is no endpoint or the post fails, kept in a per-user outbox in local
storage. A delivery pump later drains that outbox one item at a time.

The model is a functional state machine over an immutable key/value store.
It covers:

- the store `LS` and the per-user key namespacing `userKey`
  (modules `Storage`, `Records`);
- the settings record and its normalisation by `ensureSettings`, including the
  meter-type catalogues (modules `Base`, `Order`, `TypeLists`, `Config`);
- `queuePayload` and the sent log (module `Queue`);
- the submit handler `onSubmit`, with `val`, `ensureClientId` and `resetForm`
  (module `Submission`);
- the four catalogue edits of the settings dialog (module `Catalog`);
- the delivery pump `syncOutbox` / `processNext` / `finalize` (module `Delivery`).

The environment becomes parameters:

- `less` is the collation `localeCompare` sorts by. It is assumed to be a
  strict total order and nothing more.
- `sendOk` (one submission) and `replies` (one pump run) are the outcomes of
  the POSTs to the endpoint.
- `today` is the date label `toLocaleDateString('en-CA', { timeZone: TZ })`.
- `Context` holds the timestamp, the user agent, the request id and the
  client id `makeId` would produce.

The pump is modelled step by step: `Sync` is the synchronous start,
`Deliver` is the continuation after a send, and `Tick` is the pacing timer.
This means a submission or a logout can be placed between two steps.
`Drain` composes the steps of one run that nothing interrupts.

Three facts of the code shape the model:

- A rejected submission still writes. `onSubmit` calls `ensureSettings`
  (app.js:468) and `ensureClientId` (app.js:480) before the required-field
  gate (app.js:502), so even a rejected submission may write `settings` and
  `client_id`. It writes nothing else. `Submission.OnSubmit` states exactly
  this.
- A rejected submission keeps the draft. The gate returns (app.js:504)
  without calling `resetForm`; only the accepted paths (app.js:508, 516,
  518) call it.
- The two `await`s are not atomic. Both `processNext` (app.js:203) and
  `onSubmit` (app.js:510) evaluate `userKey` after the await, and
  `processNext` also writes back an array it read before the await
  (app.js:200, 205-206). A submission or a logout during the await
  therefore changes the outcome (see Findings).

## Model

| member | source | states |
|---|---|---|
| Base.Trim | app.js:146 | `trim()` returns a slice of its input with no whitespace at either end, and is empty exactly when the input is all whitespace |
| Base.TrimStrips | app.js:146 | what `trim()` removes from either end is whitespace only |
| Base.StrippedUnique | app.js:146 | any slice with only whitespace around it and none at its own ends is the result of `trim()` |
| Base.TrimIsStripping | app.js:146 | `r` is the trimmed `s` exactly when `r` is `s` with whitespace, and only whitespace, removed from both ends |
| Base.TrimIdempotent | app.js:146 | trimming a trimmed value changes nothing |
| Order.Sort | app.js:92 | the sorted copy is a permutation of its input, strictly increasing under the collation when the input has no duplicates |
| Order.SortedUnique | app.js:92 | two strictly sorted lists with the same elements are equal, so the result does not depend on the engine's sort algorithm |
| TypeLists.Dedup | app.js:92 | `[...new Set(xs)]` is duplicate-free, keeps exactly the elements of `xs`, and is `xs` itself when `xs` has no duplicates |
| TypeLists.Without | app.js:92 | `filter(x => x !== v)` keeps exactly the elements other than `v` |
| TypeLists.Splice | app.js:450 | `splice(i, 1)` removes the entry at `i`, counts a negative `i` from the end (clamped at the first entry), removes nothing past the end, and leaves an empty list empty |
| TypeLists.MergeElec | app.js:91-93 | the array branch yields the named types strictly sorted and then "Unknown" once, holding exactly the stored names and the defaults |
| TypeLists.AddToElec | app.js:440-442 | the list for a new name is normalised and holds exactly the old names, the new one and "Unknown" |
| TypeLists.DelFromElec | app.js:450-452 | the list after deleting index `i` is normalised and holds exactly the spliced list's names and "Unknown" |
| TypeLists.ElecListsEqual | app.js:91-93 | a normalised electrical catalogue is determined by its set of names |
| TypeLists.MergeElecFixpoint | app.js:91-93 | merging the defaults into a normalised catalogue that already holds them changes nothing |
| Config.Unify | app.js:101 | the endpoint is trimmed; it comes from `webhook` when that is non-empty, otherwise from `webhookUrl`; a `webhook` of only whitespace still wins and gives no endpoint |
| Config.SendUrl | app.js:180-181 | the sending endpoint is trimmed; it comes from `webhook` when that is non-empty, otherwise from `webhookUrl` |
| Config.UnifySettles | app.js:101-102 | writing the endpoint back into both fields makes the next read give the same endpoint |
| Config.EnsureSettings | app.js:88-105 | the record comes out normalised with every field present; absent catalogues become the defaults; a stored electrical array keeps all its names plus the defaults; the endpoint read by the pump does not change |
| Config.EnsureSettingsIdempotent | app.js:88-105 | once an electrical array is stored, a second `ensureSettings` changes nothing |
| Config.EnsureSettingsSettles | app.js:88-105 | whatever was stored, two applications reach a fixpoint |
| Config.AddElecType | app.js:438-444 | a listed name or "Unknown" leaves the record as it is; a new name is added, the list stays normalised, and nothing else changes |
| Config.AddElecTypePreserves | app.js:438-444 | adding keeps a normalised catalogue normalised, loses no name and contains the new one |
| Config.DelElecType | app.js:450-452 | deleting yields a normalised catalogue of the spliced names plus "Unknown" and touches no other field |
| Config.DelElecTypeRemoves | app.js:450-452 | at a valid index the deleted name is gone unless it is "Unknown", and every other name stays |
| Config.AddWaterType | app.js:457 | a name already present leaves the record as it is; an absent one is appended at the end |
| Config.AddWaterTypeUndone | app.js:457-462 | adding keeps the water list free of duplicates and lists the name; a newly added name is removed again by deleting the last entry, which restores the record |
| Config.DelWaterType | app.js:462 | the entry at a valid index is removed; an index past the end removes nothing |
| Storage.Set | app.js:31 | after `LS.set(k, v)`, `k` reads back `v` and every other key reads as before |
| Storage.Del | app.js:32 | after `LS.del(k)`, `k` reads as null and every other key reads as before |
| Storage.Get | app.js:30 | a key reads as a value exactly when it is stored, and it reads as the value stored under it |
| Storage.ActorOf | app.js:44-45 | a user is signed in exactly when `currentUser` holds a session whose name is non-empty, and that name is the one returned |
| Storage.UserKey | app.js:43-46 | a user key is one `@` and the user name longer than the logical key, a guest key six characters (`guest:`) longer |
| Storage.UserKeyParts | app.js:43-46 | a user key is the logical key, `@` and the user name; a guest key is `guest:` followed by the logical key |
| Storage.SignOut | app.js:339-340 | after logout nobody is signed in and only the `currentUser` key changed |
| Storage.UserKeyInjective | app.js:43-46 | for logical keys without `@` or `:`, two namespaced keys are equal exactly when actor and logical key are both equal; in particular no user key is a guest key |
| Storage.ScopedKeyNotGlobal | app.js:43-46 | a namespaced key is never `settings`, `currentUser` or `client_id` |
| Storage.PutSettings | app.js:26-34 | `LS.set('settings', s)` makes `s` what is read back and writes nothing else |
| Storage.FrameReaders | app.js:26-34 | a write outside a key leaves the value read from it unchanged |
| Storage.Isolation | app.js:43-46 | a change confined to one actor's outbox, sent log and draft leaves every other actor's outbox and sent log, the signed-in user and the settings unchanged |
| Queue.Bump | app.js:207-209 | `log[today]` grows by exactly one and every other date keeps its count |
| Queue.PutOutbox | app.js:170 | writing an actor's outbox makes the given items what is read back and writes no other key |
| Queue.QueueFor | app.js:168-172 | the given actor's outbox gains `p` at its tail, and only that key is written |
| Queue.QueuePayload | app.js:168-172 | the outbox of whoever is signed in when it runs becomes the old outbox with `p` appended, and only that key is written |
| Queue.RecordDelivery | app.js:207-210 | one delivery is counted for the actor under `today`; other dates and other keys are untouched |
| Queue.QueueInOrder | app.js:168-172 | enqueueing a list of payloads one by one leaves them at the tail in the same order |
| Submission.ReadForm | app.js:146 | every field read is trimmed, and each required field reads empty exactly when it holds only whitespace |
| Submission.ReadFormStrips | app.js:146 | every field read is the typed value with whitespace, and only whitespace, removed from both ends |
| Submission.ReadFormUnique | app.js:146 | a form whose every field is a stripping of the typed one is the form as read |
| Submission.ReadFormIdempotent | app.js:146 | reading an already-read form changes nothing |
| Submission.EnsureClientId | app.js:37-42 | a stored non-empty id is returned and the store is left alone; otherwise the new id is stored and returned; only `client_id` can change |
| Submission.ClientIdStable | app.js:37-42 | after one call, a second call returns the same id and writes nothing, whatever new id it is offered |
| Submission.BuildPayload | app.js:472-500 | the record holds the thirteen form values as read and the actor's last GPS fix; it is complete exactly when no required field is empty; the payload carries the signed-in user, the client id, schema version 1, the time, the user agent, the time zone and the request id; a team is present exactly when a non-empty one is set, and it is that team |
| Submission.Prepare | app.js:468-500 | before the gate, only the settings and the client id are written; the settings become normalised; the endpoint is the one stored before; the payload holds the form as read, the signed-in actor's last GPS fix and the stored team |
| Submission.ResetForm | app.js:151-161 | the signed-in actor's draft is deleted, the settings are normalised again by `populateTypes`, and nothing else is written |
| Submission.ResumeAsWritten | app.js:510-518 | as written, the POST's outcome is filed under whoever is signed in when it returns: a success counts one delivery under `today` in that actor's sent log, a failure appends the payload to that actor's outbox, and nothing else is written |
| Submission.Resume | app.js:510-518 | after the POST, a success counts one delivery under `today` in the submitter's sent log and a failure queues the payload in the submitter's outbox; nothing else is written |
| Submission.SignOutDuringSubmitMisfiles | app.js:510-518 | as written, a logout during the POST sends a failed submission to the guest outbox, or counts a delivered one in the guest sent log, leaving the user's own records unchanged |
| Submission.SignOutDuringSubmitFiled | app.js:510-518 | corrected, a logout during the POST leaves the guest records alone, and the user's own outbox or sent log is updated |
| Submission.Settle | app.js:507-519 | the outcome is delivered exactly when an endpoint is set and the send succeeds. A delivery counts one under `today` and leaves the outbox alone. Otherwise the payload is appended and the sent log is untouched. The draft is cleared, and other actors are untouched |
| Submission.Reject | app.js:502-504 | the rejected path writes nothing after the settings and the client id, so every outbox and sent log is as before |
| Submission.Accept | app.js:505-519 | the accepted path is delivered exactly when an endpoint is set and the POST succeeds, otherwise queued; only the settings, the client id and the submitter's own outbox, sent log and draft can change |
| Submission.OnSubmit | app.js:466-520 | the payload holds the form as typed with the whitespace trimmed and the signed-in actor's last GPS fix; it names a team exactly when a non-empty one is stored, and then that team; its client id is the stored one, or the new id when none was stored; a submission with a required field that is empty or only whitespace, as typed, is rejected and writes nothing but `settings` and `client_id`, so outboxes, sent logs and the draft are untouched; otherwise it is delivered (+1 today, outbox unchanged) or queued (outbox + payload, log unchanged) as the endpoint and send outcome decide; other actors' data and the signed-in user never change |
| Catalog.EnsureStored | app.js:88-105 | `ensureSettings` writes back a normalised record with the same endpoint, writes no other key and signs nobody in or out |
| Catalog.Rerender | app.js:413-414 | the two `ensureSettings` calls of a re-render (`renderTypeLists`, then `populateTypes` at app.js:257-258) leave a record that a further call does not change, and write only `settings` |
| Catalog.Current | app.js:88-105 | the record an edit starts from is normalised, holds the stored names plus the defaults, and has the stored or default water list |
| Catalog.RerenderSettles | app.js:413-414 | after the re-render's two `ensureSettings` calls, the record is a fixpoint with the stored names plus the defaults |
| Catalog.AddElecTypeIn | app.js:436-447 | a blank input changes nothing; otherwise the stored catalogue is normalised and settled, and holds the old names, the defaults and the trimmed new name |
| Catalog.DelElecTypeIn | app.js:449-454 | a non-default name at `i` is removed for good and the other names stay; deleting a default returns the record the dialog started from |
| Catalog.DeletedDefaultReturns | app.js:449-454 | deleting a default from a catalogue holding all defaults and re-rendering gives back the record as before the deletion |
| Catalog.AddWaterTypeIn | app.js:456-460 | a blank input changes nothing; a new trimmed name is appended to the water list, and a known one is not added twice |
| Catalog.DelWaterTypeIn | app.js:461-463 | the water list becomes the `splice(i, 1)` of the current one |
| Delivery.Sync | app.js:175-203 | a call while a run is in flight does nothing; no endpoint or an empty outbox ends the call with the flag clear and the store untouched; otherwise the run starts on the signed-in actor's outbox with the flag set |
| Delivery.Deliver | app.js:204-215 | after a successful send the run pauses with one more item sent; a failed send ends the run with the flag clear, the store untouched and the remaining count reported |
| Delivery.Tail | app.js:205 | `shift` removes exactly the head: the head followed by the result is the outbox before; an empty outbox stays empty |
| Delivery.DeliverEffect | app.js:204-211 | a successful send removes exactly the head of the run's outbox, counts one delivery under `today`, and writes nothing else |
| Delivery.Tick | app.js:199-203 | the timer re-reads the outbox: an empty one ends the run cleanly, otherwise the new head is sent; the store is only read |
| Delivery.Advance | app.js:203-212 | a success followed by the timer ends the run after the last item, or else sends the next item of the same outbox |
| Delivery.Continue | app.js:199-216 | whatever the replies, a run carried forward keeps the pump valid: the flag is set exactly while a run is in progress, and only an existing item is awaited |
| Delivery.Drain | app.js:174-218 | whatever the replies, one call and its run keep the pump valid in the same sense |
| Delivery.Successes | app.js:198-216 | the count of leading successes is at most the outbox length, all replies before it succeed, and the reply after it fails |
| Delivery.ContinueAttempts | app.js:198-216 | the payloads a run sends are a prefix of the outbox, in queue order |
| Delivery.ContinueLeaves | app.js:198-216 | what the run leaves queued is the outbox minus its delivered prefix |
| Delivery.ContinueCounts | app.js:204-211 | each delivered item is counted once under `today`; other dates are unchanged |
| Delivery.ContinueConfined | app.js:198-216 | a run writes only the running actor's outbox and sent log |
| Delivery.DrainSpec | app.js:174-218 | one `syncOutbox` call: ignored while in flight; early exits change nothing; otherwise the items up to the first failure are sent in order, the outbox keeps the suffix from the failed item (or is empty), each delivery is counted once, and the final report gives the sent and remaining counts |
| Delivery.FlagReleased | app.js:176-189 | every run that has ended leaves the in-flight flag clear |
| Delivery.HaltedRun | app.js:213-215 | a run reporting a failure sent the items up to and including the failed one, and left that one and the rest queued |
| Delivery.StoppedOnlyIfHalts | app.js:213-215 | only a failed send makes a run report that it stopped |
| Delivery.RunKeepsContext | app.js:174-218 | a run changes neither the endpoint nor who is signed in |
| Delivery.CleanRun | app.js:198-212 | when every send succeeds, the run sends the whole outbox in order and leaves it empty |
| Delivery.RetryDeliversRest | app.js:174-218 | after a halted run, a second successful run starts with the failed item and delivers the rest in order |
| Delivery.DrainIsolation | app.js:43-46 | a run leaves every other actor's outbox and sent log unchanged |
| Delivery.DeliverAsWritten | app.js:199-211 | the continuation as written writes back the snapshot minus its head, under the key for whoever is signed in after the send |
| Delivery.DeliverAgreesWhenUninterrupted | app.js:199-211 | when nothing ran during the send, the continuation as written and the corrected one agree |
| Delivery.EnqueueDuringSendLost | app.js:200-206 | as written, a payload queued during a send is overwritten when the send succeeds |
| Delivery.EnqueueDuringSendKept | app.js:200-206 | corrected, a payload queued during a send stays queued behind the rest |
| Delivery.SignOutDuringSendMisfiles | app.js:204-211 | as written, a logout during a send writes the user's remaining items into the guest outbox and leaves the delivered item in the user's own outbox |
| Delivery.SignOutDuringSendFiled | app.js:204-211 | corrected, a logout during a send leaves the guest outbox alone and removes the delivered item from the user's outbox |

## Left out

- The DOM: alerts, toasts, `renderOutbox`, `refreshKpis`, KPI counters, `setAuthUI`, `switchTab`, focus handling, and the `<select>` options `populateTypes` fills. Only the store writes these functions make are modelled.
- `sendToWebhook` and `fetch`. A send is a boolean outcome supplied from outside, and the request body is not serialised.
- The clock and the time zone. `today` and the submit timestamp are parameters, and the `setTimeout` pacing (2000 ms) is the `Tick` step.
- `makeId` and `crypto.randomUUID`. The fresh ids are parameters.
- The `localStorage` availability probe, JSON encoding, and the exceptions `LS` swallows. The store is one map.
- The in-memory fallback of `LS` (app.js:27, 30-32), used when `localStorage` is unavailable. It stores and returns the caller's own objects, so an array read from it and mutated later (`out.push(p)` in `queuePayload`, `out.shift()` in `processNext`) changes the stored value before any `set`. The model copies values, as the `localStorage` branch does through JSON, and the first two findings below are stated for that branch.
- A stored value of a shape the code does not expect, such as an outbox that is not an array: the model reads it as absent, as `|| []` and `|| {}` do for a missing key.
- GPS acquisition (`startGeoWatch`, `updateBadge`). Only reading the last fix stored for the actor is modelled.
- Login, discovery of the endpoint, `saveSettings`, user creation and `settings-users-endpoint.js`. These only produce the stored values this model reads.
- Drafts are only deleted here. `saveDraft` and `loadDraft` are not part of this model.
- Order.Sort: stands for `Array.prototype.sort` with `localeCompare`, which is assumed to be a strict total order. This makes the result unique and does not depend on the sort algorithm. Collations that call two distinct strings equal are not modelled.
- Delivery.Drain: one `today` covers a whole run. A run that crosses midnight would count items under two dates; `Deliver` takes the date per step, so such a run can still be composed from single steps.
- Submission.OnSubmit: runs from start to end without interleaving, so it does not promise anything when a logout happens during the `await` at app.js:510. That case is the third finding: `Submission.ResumeAsWritten` is the code as written, and `Submission.Resume`, which `Submission.Settle` uses, keys the writes by the submitting actor.
- Delivery.Deliver: is the corrected continuation. The code as written is `Delivery.DeliverAsWritten` (see Findings), and `Delivery.DeliverAgreesWhenUninterrupted` shows the two agree on every run that nothing interrupts.

## Findings

| source | as written | input that shows it | evidently intended | confidence | as-written member | corrected member |
|---|---|---|---|---|---|---|
| app.js:200-206 | with `localStorage` available: after `await sendToWebhook`, `processNext` shifts the array it read before the await and stores that array back | a submission that fails (and so queues payload `x`) while the send of item 1 of `[1, 2]` is awaited; the send succeeds; the outbox becomes `[2]` and `x` is lost | the outbox as it now stands loses its head, giving `[2, x]` | not executed | Delivery.EnqueueDuringSendLost | Delivery.EnqueueDuringSendKept |
| app.js:204-211 | with `localStorage` available: `userKey('outbox')` and `userKey('sentLog')` are evaluated after the await, against whoever is signed in then | user `u` with outbox `[1, 2]` logs out while item 1 is being sent; the send succeeds; the guest outbox becomes `[2]` and `u`'s outbox keeps `[1, 2]`, so item 1 is sent twice | the outbox and sent log of the user the run started for are updated | not executed | Delivery.SignOutDuringSendMisfiles | Delivery.SignOutDuringSendFiled |
| app.js:510-518 | after `await sendToWebhook`, `onSubmit` counts the delivery under `userKey('sentLog')` or queues the payload through `queuePayload`, both evaluated against whoever is signed in then | user `u` submits with the endpoint down and logs out while the POST is awaited; the POST fails; the payload, which names `u`, is queued in the guest outbox and `u`'s outbox is unchanged | the payload is queued in, or counted against, the outbox or sent log of the user who submitted it | not executed | Submission.SignOutDuringSubmitMisfiles | Submission.SignOutDuringSubmitFiled |

=== FILE: base.dfy ===
/** Small shared vocabulary: an optional value, duplicate-freedom of a
    sequence, and the whitespace trimming that JavaScript's String.prototype.trim
    performs on every value read from a form field or a settings entry. */
module Base {

  /** The conventional Some/None datatype; stands for a JavaScript value that
      may be null, missing, or of the wrong type. */
  datatype Option<+T> = None | Some(value: T)

  /** No element occurs twice. */
  ghost predicate NoDup<T>(xs: seq<T>) {
    forall i, j :: 0 <= i < j < |xs| ==> xs[i] != xs[j]
  }

  lemma HeadIn<T>(xs: seq<T>)
    requires |xs| > 0
    ensures xs[0] in xs
  {
  }

  /** In a duplicate-free sequence the head does not recur in the tail. */
  lemma HeadNotInTail<T>(xs: seq<T>)
    requires NoDup(xs) && |xs| > 0
    ensures xs[0] !in xs[1..]
  {
  }

  /** The characters trim removes: ECMAScript WhiteSpace (TAB, VT, FF, SP,
      NBSP, ZWNBSP and the Unicode space separators) and LineTerminator
      (LF, CR, LS, PS). */
  predicate IsSpace(c: char) {
    || c == '\t' || c == '\n' || c == '\U{000B}' || c == '\U{000C}' || c == '\r'
    || c == ' ' || c == '\U{00A0}' || c == '\U{1680}'
    || ('\U{2000}' <= c <= '\U{200A}')
    || c == '\U{2028}' || c == '\U{2029}' || c == '\U{202F}' || c == '\U{205F}'
    || c == '\U{3000}' || c == '\U{FEFF}'
  }

  /** Neither the first nor the last character is whitespace. */
  predicate IsTrimmed(s: string) {
    |s| == 0 || (!IsSpace(s[0]) && !IsSpace(s[|s| - 1]))
  }

  /** Every character is whitespace (the empty string included). */
  ghost predicate AllSpace(s: string) {
    forall i :: 0 <= i < |s| ==> IsSpace(s[i])
  }

  /** `r` occurs in `s` starting at index `i`. */
  ghost predicate SliceAt(r: string, s: string, i: int) {
    0 <= i <= |s| - |r| && r == s[i..i + |r|]
  }

  /** `r` is `s` with a run of whitespace removed from each end: it sits in
      `s` at `i` and everything before and after it is whitespace. */
  ghost predicate StrippedAt(r: string, s: string, i: int) {
    SliceAt(r, s, i) && AllSpace(s[..i]) && AllSpace(s[i + |r|..])
  }

  /** `r` is what remains of `s` once all whitespace is removed from both
      ends, and no more. */
  ghost predicate Stripped(r: string, s: string) {
    IsTrimmed(r) && exists i :: StrippedAt(r, s, i)
  }

  /** The index of the first non-whitespace character at or after `i`, or
      `|s|` when there is none. */
  function SkipSpace(s: string, i: nat): (k: nat)
    requires i <= |s|
    ensures i <= k <= |s|
    ensures forall j :: i <= j < k ==> IsSpace(s[j])
    ensures k < |s| ==> !IsSpace(s[k])
    decreases |s| - i
  {
    if i < |s| && IsSpace(s[i]) then SkipSpace(s, i + 1) else i
  }

  /** The end of `s[lo..e]` once its trailing whitespace is dropped. */
  function SkipSpaceBack(s: string, lo: nat, e: nat): (k: nat)
    requires lo <= e <= |s|
    ensures lo <= k <= e
    ensures forall j :: k <= j < e ==> IsSpace(s[j])
    ensures k > lo ==> !IsSpace(s[k - 1])
    decreases e
  {
    if e > lo && IsSpace(s[e - 1]) then SkipSpaceBack(s, lo, e - 1) else e
  }

  /** JavaScript's `s.trim()`: the slice of `s` from its first to its last
      non-whitespace character. It has no whitespace at either end, and it
      is empty exactly when `s` is all whitespace. */
  function Trim(s: string): (r: string)
    ensures IsTrimmed(r)
    ensures |r| <= |s|
    ensures r == [] <==> AllSpace(s)
    ensures exists i :: SliceAt(r, s, i)
  {
    var a := SkipSpace(s, 0);
    var b := SkipSpaceBack(s, a, |s|);
    assert SliceAt(s[a..b], s, a);
    assert a == b ==> AllSpace(s);
    s[a..b]
  }

  /** What Trim removes from either end of `s` is whitespace. */
  lemma TrimStrips(s: string)
    ensures Stripped(Trim(s), s)
  {
    var a := SkipSpace(s, 0);
    var b := SkipSpaceBack(s, a, |s|);
    assert Trim(s) == s[a..b];
    assert AllSpace(s[..a]) by {
      forall j | 0 <= j < a ensures IsSpace(s[..a][j]) { assert s[..a][j] == s[j]; }
    }
    assert AllSpace(s[b..]) by {
      forall j | 0 <= j < |s| - b ensures IsSpace(s[b..][j]) { assert s[b..][j] == s[b + j]; }
    }
    assert StrippedAt(s[a..b], s, a);
  }

  /** Trim is the only stripping of `s`: any slice of `s` with whitespace
      only around it and none at its own ends is `Trim(s)`. */
  lemma StrippedUnique(r: string, s: string)
    requires Stripped(r, s)
    ensures r == Trim(s)
  {
    var i :| StrippedAt(r, s, i);
    var e := i + |r|;
    assert forall j :: 0 <= j < i ==> IsSpace(s[j]) by {
      forall j | 0 <= j < i ensures IsSpace(s[j]) { assert s[..i][j] == s[j]; }
    }
    assert forall j :: e <= j < |s| ==> IsSpace(s[j]) by {
      forall j | e <= j < |s| ensures IsSpace(s[j]) { assert s[e..][j - e] == s[j]; }
    }
    var a := SkipSpace(s, 0);
    var b := SkipSpaceBack(s, a, |s|);
    if |r| == 0 {
      assert AllSpace(s) by {
        forall j | 0 <= j < |s| ensures IsSpace(s[j]) {
          if j >= i { assert j >= e; }
        }
      }
    } else {
      assert s[i] == r[0] && s[e - 1] == r[|r| - 1];
      assert a == i;
      assert b == e;
    }
  }

  /** Trim is exactly the stripping of whitespace from both ends. */
  lemma TrimIsStripping(r: string, s: string)
    ensures r == Trim(s) <==> Stripped(r, s)
  {
    TrimStrips(s);
    if Stripped(r, s) {
      StrippedUnique(r, s);
    }
  }

  /** Trimming a string that is already trimmed changes nothing. */
  lemma TrimOfTrimmed(s: string)
    requires IsTrimmed(s)
    ensures Trim(s) == s
  {
    assert SkipSpace(s, 0) == 0;
    assert SkipSpaceBack(s, 0, |s|) == |s|;
    assert s[0..|s|] == s;
  }

  /** Trim is idempotent. */
  lemma TrimIdempotent(s: string)
    ensures Trim(Trim(s)) == Trim(s)
  {
    TrimOfTrimmed(Trim(s));
  }
}

=== FILE: catalog.dfy ===
/** The catalogue edits of the settings dialog as they act on the store
    (app.js:436-463). Each edit reads the record through ensureSettings,
    changes one catalogue, writes the record back, and then re-renders:
    renderTypeLists (app.js:414) and populateTypes (app.js:258) each run
    ensureSettings once more, which writes the record again. */
module Catalog {
  import opened Base
  import opened Order
  import opened TypeLists
  import opened Config
  import opened Storage

  /** The electrical names a record holds; none when it holds no array. */
  function ElecNames(s: Settings): seq<string> {
    if s.elecTypes.Some? then s.elecTypes.value else []
  }

  /** The water catalogue ensureSettings yields for a record. */
  function WaterNames(s: Settings): seq<string> {
    if s.waterTypes.Some? then s.waterTypes.value else DefaultWater
  }

  /** The names ensureSettings leaves in the electrical catalogue: the old
      ones and the defaults; and the water catalogue it leaves. */
  lemma EnsureNames(s: Settings, less: (string, string) -> bool)
    requires StrictTotalOrder(less)
    ensures var e := EnsureSettings(s, less);
      && (forall x :: x in e.elecTypes.value <==> x in ElecNames(s) || x in DefaultElec)
      && e.waterTypes == Some(WaterNames(s))
  {
  }

  /** ensureSettings treats the fields other than the electrical catalogue
      independently of it: two records that differ only there come out
      differing only there. */
  lemma EnsureOtherFields(a: Settings, b: Settings, less: (string, string) -> bool)
    requires StrictTotalOrder(less)
    requires a == b.(elecTypes := a.elecTypes)
    ensures EnsureSettings(a, less) == EnsureSettings(b, less).(elecTypes := EnsureSettings(a, less).elecTypes)
  {
  }

  /** The record a dialog edit starts from. The write ensureSettings makes
      here is overwritten by the edit's own write, so only the record
      matters. */
  function Current(st: Store, less: (string, string) -> bool): (s: Settings)
    requires StrictTotalOrder(less)
    ensures Normalised(s)
    ensures forall x :: x in s.elecTypes.value <==> x in ElecNames(SettingsOf(st)) || x in DefaultElec
    ensures s.waterTypes == Some(WaterNames(SettingsOf(st)))
  {
    EnsureNames(SettingsOf(st), less);
    EnsureSettings(SettingsOf(st), less)
  }

  /** ensureSettings against the store: the record is normalised and
      written back. */
  method EnsureStored(st: Store, less: (string, string) -> bool) returns (r: Store)
    requires StrictTotalOrder(less)
    ensures SettingsOf(r) == EnsureSettings(SettingsOf(st), less)
    ensures Normalised(SettingsOf(r)) && SendUrl(SettingsOf(r)) == SendUrl(SettingsOf(st))
    ensures Frame(st, r, {SettingsKey})
    ensures ActorOf(r) == ActorOf(st)
  {
    r := PutSettings(st, EnsureSettings(SettingsOf(st), less));
  }

  /** renderTypeLists followed by populateTypes. */
  method Rerender(st: Store, less: (string, string) -> bool) returns (r: Store)
    requires StrictTotalOrder(less)
    ensures SettingsOf(r) == EnsureSettings(EnsureSettings(SettingsOf(st), less), less)
    ensures EnsureSettings(SettingsOf(r), less) == SettingsOf(r)
    ensures Frame(st, r, {SettingsKey})
    ensures ActorOf(r) == ActorOf(st)
  {
    var st1 := EnsureStored(st, less);
    r := EnsureStored(st1, less);
    FrameTrans(st, st1, r, {SettingsKey});
    EnsureSettingsSettles(SettingsOf(st), less);
  }

  /** The record ensureSettings settles on: applying it to a record it
      produced twice changes nothing. */
  lemma RerenderSettles(s: Settings, less: (string, string) -> bool)
    requires StrictTotalOrder(less)
    requires s.elecTypes.Some?
    ensures var r := EnsureSettings(EnsureSettings(s, less), less);
      Normalised(r) && ElecListOk(r.elecTypes.value, less) && EnsureSettings(r, less) == r
      && (forall x :: x in r.elecTypes.value <==> x in s.elecTypes.value || x in DefaultElec)
      && r.waterTypes == Some(WaterNames(s))
  {
    EnsureSettingsIdempotent(EnsureSettings(s, less), less);
  }

  /** The names after addElecType and the re-render: the old ones, the
      defaults and the new one. */
  lemma AddedNames(s: Settings, v: string, less: (string, string) -> bool)
    requires StrictTotalOrder(less)
    ensures var s1 := AddElecType(EnsureSettings(s, less), v, less);
      var ys := EnsureSettings(EnsureSettings(s1, less), less).elecTypes.value;
      forall x :: x in ys <==> x in ElecNames(s) || x in DefaultElec || x == v
  {
    var s0 := EnsureSettings(s, less);
    var s1 := AddElecType(s0, v, less);
    var ys := EnsureSettings(EnsureSettings(s1, less), less).elecTypes.value;
    RerenderSettles(s1, less);
    EnsureNames(s, less);
    UnknownIsDefault();
    assert forall x :: x in s1.elecTypes.value <==> x in s0.elecTypes.value || x == v by {
      if v in s0.elecTypes.value || v == Unknown {
        assert s1 == s0;
        assert Unknown in s0.elecTypes.value;
      }
    }
    forall x ensures x in ys <==> x in ElecNames(s) || x in DefaultElec || x == v {
      assert x in ys <==> x in s1.elecTypes.value || x in DefaultElec;
      assert x in s0.elecTypes.value <==> x in ElecNames(s) || x in DefaultElec;
    }
  }

  /** addElecType (app.js:436-447) on the input `raw`, which is trimmed. A
      blank input changes nothing; otherwise the catalogue ends up sorted
      with "Unknown" last, holding the old names, the defaults and the new
      name, and the record is one ensureSettings leaves as it is. */
  method AddElecTypeIn(st: Store, raw: string, less: (string, string) -> bool) returns (r: Store)
    requires StrictTotalOrder(less)
    ensures AllSpace(raw) ==> r == st
    ensures Frame(st, r, {SettingsKey})
    ensures !AllSpace(raw) ==> Normalised(SettingsOf(r)) && EnsureSettings(SettingsOf(r), less) == SettingsOf(r)
    ensures !AllSpace(raw) ==>
      var ys := SettingsOf(r).elecTypes.value;
      && ElecListOk(ys, less)
      && forall x :: x in ys <==> x in ElecNames(SettingsOf(st)) || x in DefaultElec || x == Trim(raw)
  {
    var v := Trim(raw);
    if v == "" {
      return st;
    }
    var s1 := AddElecType(Current(st, less), v, less);
    var st1 := PutSettings(st, s1);
    r := Rerender(st1, less);
    FrameTrans(st, st1, r, {SettingsKey});
    RerenderSettles(s1, less);
    AddedNames(SettingsOf(st), v, less);
  }

  /** Deleting a default name from a catalogue that holds every default is
      undone by ensureSettings: the record settles where it was. */
  lemma DeletedDefaultReturns(s0: Settings, i: int, less: (string, string) -> bool)
    requires StrictTotalOrder(less)
    requires s0.elecTypes.Some? && NoDup(s0.elecTypes.value)
    requires forall d :: d in DefaultElec ==> d in s0.elecTypes.value
    requires 0 <= i < |s0.elecTypes.value| && s0.elecTypes.value[i] in DefaultElec
    ensures EnsureSettings(EnsureSettings(DelElecType(s0, i, less), less), less)
         == EnsureSettings(s0, less)
  {
    var s1 := DelElecType(s0, i, less);
    var e := EnsureSettings(s0, less);
    var f := EnsureSettings(EnsureSettings(s1, less), less);
    DeletedDefaultNames(s0, i, less);
    RerenderSettles(s1, less);
    ElecListsEqual(f.elecTypes.value, e.elecTypes.value, less);
    EnsureSettingsIdempotent(s0, less);
    EnsureOtherFields(s1, s0, less);
    EnsureOtherFields(EnsureSettings(s1, less), e, less);
  }

  /** The names part of DeletedDefaultReturns. */
  lemma DeletedDefaultNames(s0: Settings, i: int, less: (string, string) -> bool)
    requires StrictTotalOrder(less)
    requires s0.elecTypes.Some? && NoDup(s0.elecTypes.value)
    requires forall d :: d in DefaultElec ==> d in s0.elecTypes.value
    requires 0 <= i < |s0.elecTypes.value| && s0.elecTypes.value[i] in DefaultElec
    ensures var f := EnsureSettings(EnsureSettings(DelElecType(s0, i, less), less), less);
      forall x :: x in f.elecTypes.value <==> x in EnsureSettings(s0, less).elecTypes.value
  {
    var xs := s0.elecTypes.value;
    var s1 := DelElecType(s0, i, less);
    var e := EnsureSettings(s0, less);
    var f := EnsureSettings(EnsureSettings(s1, less), less);
    DelElecTypeRemoves(s0, i, less);
    RerenderSettles(s1, less);
    UnknownIsDefault();
    forall x ensures x in f.elecTypes.value <==> x in e.elecTypes.value {
      assert x in f.elecTypes.value <==> x in s1.elecTypes.value || x in DefaultElec;
      assert x in e.elecTypes.value <==> x in xs || x in DefaultElec;
      if x in s1.elecTypes.value && x != Unknown {
        SpliceSubset(xs, i, x);
      }
    }
  }

  /** delElecType (app.js:449-454): the entry at index `i` of the current
      catalogue is spliced out and the catalogue re-normalised; the
      re-render merges the defaults back in. So deleting a name that is not
      a default removes it for good, and deleting a default leaves the
      record the dialog had already settled on. */
  method DelElecTypeIn(st: Store, i: int, less: (string, string) -> bool) returns (r: Store)
    requires StrictTotalOrder(less)
    ensures Frame(st, r, {SettingsKey})
    ensures Normalised(SettingsOf(r)) && EnsureSettings(SettingsOf(r), less) == SettingsOf(r)
    ensures var ys := SettingsOf(r).elecTypes.value;
      && ElecListOk(ys, less)
      && forall x :: x in ys <==>
           x in Splice(Current(st, less).elecTypes.value, i) || x in DefaultElec
    ensures var xs := Current(st, less).elecTypes.value;
      0 <= i < |xs| && xs[i] !in DefaultElec ==>
        xs[i] !in SettingsOf(r).elecTypes.value
        && forall x :: x in xs && x != xs[i] ==> x in SettingsOf(r).elecTypes.value
    ensures var xs := Current(st, less).elecTypes.value;
      0 <= i < |xs| && xs[i] in DefaultElec ==>
        SettingsOf(r) == EnsureSettings(Current(st, less), less)
  {
    var s0 := Current(st, less);
    var xs := s0.elecTypes.value;
    var s1 := DelElecType(s0, i, less);
    var st1 := PutSettings(st, s1);
    r := Rerender(st1, less);
    FrameTrans(st, st1, r, {SettingsKey});
    RerenderSettles(s1, less);
    if 0 <= i < |xs| {
      DelElecTypeRemoves(s0, i, less);
      if xs[i] in DefaultElec {
        DeletedDefaultReturns(s0, i, less);
      }
    }
  }

  /** addWaterType (app.js:456-460): a blank input changes nothing; a new
      name is appended at the end, a known one is not added twice. */
  method AddWaterTypeIn(st: Store, raw: string, less: (string, string) -> bool) returns (r: Store)
    requires StrictTotalOrder(less)
    ensures AllSpace(raw) ==> r == st
    ensures Frame(st, r, {SettingsKey})
    ensures !AllSpace(raw) ==> Normalised(SettingsOf(r))
    ensures !AllSpace(raw) ==>
      var ws := WaterNames(SettingsOf(st));
      SettingsOf(r).waterTypes.value == if Trim(raw) in ws then ws else ws + [Trim(raw)]
  {
    var v := Trim(raw);
    if v == "" {
      return st;
    }
    var s1 := AddWaterType(Current(st, less), v);
    var st1 := PutSettings(st, s1);
    r := Rerender(st1, less);
    FrameTrans(st, st1, r, {SettingsKey});
    RerenderSettles(s1, less);
  }

  /** delWaterType (app.js:461-463): the entry at index `i` is spliced out
      with JavaScript's `splice(i, 1)`. */
  method DelWaterTypeIn(st: Store, i: int, less: (string, string) -> bool) returns (r: Store)
    requires StrictTotalOrder(less)
    ensures Frame(st, r, {SettingsKey})
    ensures Normalised(SettingsOf(r))
    ensures SettingsOf(r).waterTypes == Some(Splice(WaterNames(SettingsOf(st)), i))
  {
    var s1 := DelWaterType(Current(st, less), i);
    var st1 := PutSettings(st, s1);
    r := Rerender(st1, less);
    FrameTrans(st, st1, r, {SettingsKey});
    RerenderSettles(s1, less);
  }
}

=== FILE: config.dfy ===
/** The global settings record and its normalisation (app.js:88-105) and the
    catalogue edits made from the settings dialog (app.js:436-463), as pure
    functions on the record. Storing the record is done in module Catalog. */
module Config {
  import opened Base
  import opened Order
  import opened TypeLists

  /** The fields of the stored settings object that the core reads. `None`
      stands for "missing or not of the expected type" (not an array, not a
      string), which is what the `Array.isArray` / `typeof` guards test. */
  datatype Settings = Settings(
    elecTypes: Option<seq<string>>,
    waterTypes: Option<seq<string>>,
    team: Option<string>,
    authWebhook: Option<string>,
    createUserWebhook: Option<string>,
    webhook: Option<string>,
    webhookUrl: Option<string>)

  /** `{}`: what `LS.get('settings') || {}` yields when nothing is stored. */
  const Empty: Settings := Settings(None, None, None, None, None, None, None)

  /** The string a field holds, or "" when it holds none. */
  function TextOr(o: Option<string>): string {
    if o.Some? then o.value else ""
  }

  /** `(webhook || webhookUrl || '').trim()`: the first non-empty of the two
      fields, trimmed. A whitespace-only `webhook` wins over `webhookUrl` and
      trims to "". */
  function Unify(webhook: string, webhookUrl: string): (r: string)
    ensures IsTrimmed(r)
    ensures webhook != "" ==> r == Trim(webhook)
    ensures webhook == "" ==> r == Trim(webhookUrl)
    ensures webhook != "" && AllSpace(webhook) ==> r == ""
  {
    Trim(if webhook != "" then webhook else webhookUrl)
  }

  /** Writing the endpoint back into both fields, as ensureSettings does,
      makes the next read return the same endpoint. */
  lemma UnifySettles(webhook: string, webhookUrl: string)
    ensures var r := Unify(webhook, webhookUrl); Unify(r, r) == r
  {
  }

  /** The delivery endpoint read straight from a stored record, as
      syncOutbox does (app.js:180-181); "" means none is configured. */
  function SendUrl(s: Settings): (r: string)
    ensures IsTrimmed(r)
    ensures TextOr(s.webhook) != "" ==> r == Trim(TextOr(s.webhook))
    ensures TextOr(s.webhook) == "" ==> r == Trim(TextOr(s.webhookUrl))
  {
    Unify(TextOr(s.webhook), TextOr(s.webhookUrl))
  }

  /** Every field present, the two endpoint fields equal and trimmed, both
      catalogues present and the electrical one shaped by UnknownLastOnce. */
  ghost predicate Normalised(s: Settings) {
    && s.elecTypes.Some? && s.waterTypes.Some?
    && s.team.Some? && s.authWebhook.Some? && s.createUserWebhook.Some?
    && s.webhook.Some? && s.webhookUrl == s.webhook && IsTrimmed(s.webhook.value)
    && UnknownLastOnce(s.elecTypes.value) && NoDup(s.elecTypes.value)
  }

  /** ensureSettings (app.js:88-105) on the record it reads. */
  function EnsureSettings(s: Settings, less: (string, string) -> bool): (r: Settings)
    requires StrictTotalOrder(less)
    ensures Normalised(r)
    ensures SendUrl(r) == SendUrl(s)
    ensures s.elecTypes.None? ==> r.elecTypes == Some(DefaultElec)
    ensures s.elecTypes.Some? ==> ElecListOk(r.elecTypes.value, less)
    ensures s.elecTypes.Some? ==> forall x :: x in r.elecTypes.value <==> x in s.elecTypes.value || x in DefaultElec
    ensures r.waterTypes == (if s.waterTypes.Some? then s.waterTypes else Some(DefaultWater))
    ensures r.team == Some(TextOr(s.team))
    ensures r.authWebhook == Some(TextOr(s.authWebhook))
    ensures r.createUserWebhook == Some(TextOr(s.createUserWebhook))
  {
    var elec := if s.elecTypes.None? then DefaultElec else MergeElec(s.elecTypes.value, less);
    var water := if s.waterTypes.None? then DefaultWater else s.waterTypes.value;
    var url := Unify(TextOr(s.webhook), TextOr(s.webhookUrl));
    DefaultElecShape();
    assert NoDup(elec) by {
      if s.elecTypes.Some? { SortedHasNoDup(elec[..|elec| - 1], less); NoDupSnoc(elec); }
    }
    TrimOfTrimmed(url);
    Settings(Some(elec), Some(water), Some(TextOr(s.team)), Some(TextOr(s.authWebhook)),
             Some(TextOr(s.createUserWebhook)), Some(url), Some(url))
  }

  /** A duplicate-free prefix followed by one element absent from it has no
      duplicates. */
  lemma NoDupSnoc(xs: seq<string>)
    requires |xs| > 0 && NoDup(xs[..|xs| - 1]) && xs[|xs| - 1] !in xs[..|xs| - 1]
    ensures NoDup(xs)
  {
    forall i, j | 0 <= i < j < |xs| ensures xs[i] != xs[j] {
      if j == |xs| - 1 {
        assert xs[i] == xs[..|xs| - 1][i];
      } else {
        assert xs[i] == xs[..|xs| - 1][i] && xs[j] == xs[..|xs| - 1][j];
      }
    }
  }

  /** Once the record holds an electrical array, ensureSettings is
      idempotent. */
  lemma EnsureSettingsIdempotent(s: Settings, less: (string, string) -> bool)
    requires StrictTotalOrder(less)
    requires s.elecTypes.Some?
    ensures EnsureSettings(EnsureSettings(s, less), less) == EnsureSettings(s, less)
  {
    var r := EnsureSettings(s, less);
    MergeElecFixpoint(r.elecTypes.value, less);
    TrimOfTrimmed(r.webhook.value);
  }

  /** Whatever was stored, the second application of ensureSettings reaches
      its fixpoint. */
  lemma EnsureSettingsSettles(s: Settings, less: (string, string) -> bool)
    requires StrictTotalOrder(less)
    ensures var r := EnsureSettings(EnsureSettings(s, less), less);
      EnsureSettings(r, less) == r
  {
    EnsureSettingsIdempotent(EnsureSettings(s, less), less);
  }

  /** addElecType on a normalised record (app.js:439-444): a name already
      listed, or "Unknown", leaves the record as it is; any other name is
      added and the catalogue re-sorted with "Unknown" last. */
  function AddElecType(s: Settings, v: string, less: (string, string) -> bool): (r: Settings)
    requires StrictTotalOrder(less)
    requires s.elecTypes.Some?
    ensures r.elecTypes.Some?
    ensures r == s.(elecTypes := r.elecTypes)
    ensures v in s.elecTypes.value || v == Unknown ==> r == s
    ensures v !in s.elecTypes.value && v != Unknown ==>
      ElecListOk(r.elecTypes.value, less) &&
      forall x :: x in r.elecTypes.value <==> x in s.elecTypes.value || x == v || x == Unknown
  {
    var xs := s.elecTypes.value;
    if v !in xs && v != Unknown then s.(elecTypes := Some(AddToElec(xs, v, less)))
    else s
  }

  /** Adding a name keeps a normalised catalogue normalised and loses no
      name. */
  lemma AddElecTypePreserves(s: Settings, v: string, less: (string, string) -> bool)
    requires StrictTotalOrder(less)
    requires s.elecTypes.Some? && ElecListOk(s.elecTypes.value, less)
    ensures ElecListOk(AddElecType(s, v, less).elecTypes.value, less)
    ensures forall x :: x in s.elecTypes.value ==> x in AddElecType(s, v, less).elecTypes.value
    ensures v in AddElecType(s, v, less).elecTypes.value
  {
  }

  /** delElecType (app.js:449-452): the catalogue loses the entry at index
      `i` and is re-normalised; "Unknown" cannot be deleted. */
  function DelElecType(s: Settings, i: int, less: (string, string) -> bool): (r: Settings)
    requires StrictTotalOrder(less)
    requires s.elecTypes.Some?
    ensures r.elecTypes.Some? && r == s.(elecTypes := r.elecTypes)
    ensures ElecListOk(r.elecTypes.value, less)
    ensures forall x :: x in r.elecTypes.value <==> x in Splice(s.elecTypes.value, i) || x == Unknown
  {
    s.(elecTypes := Some(DelFromElec(s.elecTypes.value, i, less)))
  }

  /** On a duplicate-free catalogue, deleting the entry at a valid index
      removes exactly that name (unless it is "Unknown"), and keeps the
      others. */
  lemma DelElecTypeRemoves(s: Settings, i: int, less: (string, string) -> bool)
    requires StrictTotalOrder(less)
    requires s.elecTypes.Some? && NoDup(s.elecTypes.value)
    requires 0 <= i < |s.elecTypes.value|
    ensures var xs := s.elecTypes.value;
      var ys := DelElecType(s, i, less).elecTypes.value;
      (xs[i] != Unknown ==> xs[i] !in ys) &&
      forall x :: x in xs && x != xs[i] ==> x in ys
  {
    var xs := s.elecTypes.value;
    var rest := xs[..i] + xs[i + 1..];
    assert Splice(xs, i) == rest;
    forall x | x in xs && x != xs[i] ensures x in rest {
      var k :| 0 <= k < |xs| && xs[k] == x;
      if k < i { assert rest[k] == x; } else { assert rest[k - 1] == x; }
    }
    assert xs[i] !in rest by {
      forall k | 0 <= k < |rest| ensures rest[k] != xs[i] {
        if k < i { assert rest[k] == xs[k]; } else { assert rest[k] == xs[k + 1]; }
      }
    }
  }

  /** addWaterType (app.js:457): append `v` only when it is absent. */
  function AddWaterType(s: Settings, v: string): (r: Settings)
    requires s.waterTypes.Some?
    ensures r.waterTypes.Some? && r == s.(waterTypes := r.waterTypes)
    ensures v in s.waterTypes.value ==> r == s
    ensures v !in s.waterTypes.value ==> r.waterTypes.value == s.waterTypes.value + [v]
  {
    if v in s.waterTypes.value then s
    else s.(waterTypes := Some(s.waterTypes.value + [v]))
  }

  /** delWaterType (app.js:462): splice out the entry at index `i`. */
  function DelWaterType(s: Settings, i: int): (r: Settings)
    requires s.waterTypes.Some?
    ensures r.waterTypes.Some? && r == s.(waterTypes := r.waterTypes)
    ensures 0 <= i < |s.waterTypes.value| ==>
      r.waterTypes.value == s.waterTypes.value[..i] + s.waterTypes.value[i + 1..]
    ensures i >= |s.waterTypes.value| ==> r == s
  {
    s.(waterTypes := Some(Splice(s.waterTypes.value, i)))
  }

  /** Adding a water type keeps the catalogue free of duplicates and lists
      the name; when the name was new, deleting the last entry undoes the
      addition. */
  lemma AddWaterTypeUndone(s: Settings, v: string)
    requires s.waterTypes.Some? && NoDup(s.waterTypes.value)
    ensures NoDup(AddWaterType(s, v).waterTypes.value)
    ensures v in AddWaterType(s, v).waterTypes.value
    ensures v !in s.waterTypes.value ==>
      DelWaterType(AddWaterType(s, v), |s.waterTypes.value|) == s
  {
    var xs := s.waterTypes.value;
    if v !in xs {
      var ys := xs + [v];
      assert ys[..|ys| - 1] == xs;
      NoDupSnoc(ys);
      assert ys[..|xs|] + ys[|xs| + 1..] == xs;
    }
  }
}

=== FILE: delivery.dfy ===
/** The delivery pump syncOutbox / processNext / finalize (app.js:174-218).

    The pump is a state machine whose steps are the points at which the
    JavaScript code runs between suspensions:
    - Sync: the synchronous part of `syncOutbox()`, up to the first `await`
      inside `processNext`;
    - Deliver: the continuation after `await sendToWebhook(...)` returns, with
      the send's outcome `ok` and the date label `today` as parameters;
    - Tick: the pacing timer firing `processNext` again.
    Any other store operation (an enqueue from the capture form, a logout) may
    run between two steps. Drain composes the steps for one run during which
    nothing else happens. */
module Delivery {
  import opened Base
  import opened Records
  import opened Config
  import opened Storage
  import opened Queue

  /** What the pump is doing. The module-level flag `__syncInFlight` is kept
      separately in Pump.inFlight. */
  datatype Phase =
    | Idle
      // awaiting the reply for `snapshot[0]`; `snapshot` is the outbox as
      // read by processNext for `actor` before the send
    | Sending(url: string, actor: Option<string>, sent: nat, snapshot: seq<Payload>)
      // a delivery succeeded; the next processNext is scheduled
    | Pausing(url: string, sent: nat)

  datatype Pump = Pump(store: Store, inFlight: bool, phase: Phase)

  /** What the run tells the user (the alerts of app.js:182, 185, 193-195).
      Ignored is the silent return of a call made while a run is in flight. */
  datatype Report =
    | Ignored
    | NoEndpoint
    | NothingToSync
    | Synced(sent: nat, stopped: bool, remaining: nat)

  datatype Step = Step(pump: Pump, report: Option<Report>)

  /** The flag is set exactly while a run is in progress, and a send is only
      ever awaited for an item that exists. */
  ghost predicate Valid(p: Pump) {
    && (p.inFlight <==> !p.phase.Idle?)
    && (p.phase.Sending? ==> |p.phase.snapshot| > 0)
  }

  /** `out.shift()` on the array: the head is dropped, and `[].shift()`
      leaves an empty array empty. */
  function Tail(q: seq<Payload>): (r: seq<Payload>)
    ensures |q| > 0 ==> [q[0]] + r == q
    ensures |q| == 0 ==> r == []
  {
    if |q| > 0 then q[1..] else q
  }

  /** syncOutbox up to the first send. A call while the flag is set does
      nothing; a missing endpoint or an empty outbox ends the call with the
      flag released and the store untouched; otherwise the run starts with the
      head of the signed-in actor's outbox. */
  function Sync(p: Pump): (r: Step)
    requires Valid(p)
    ensures Valid(r.pump)
    ensures p.inFlight ==> r == Step(p, Some(Ignored))
    ensures !p.inFlight && SendUrl(SettingsOf(p.store)) == "" ==>
      r == Step(p, Some(NoEndpoint))
    ensures (!p.inFlight && SendUrl(SettingsOf(p.store)) != ""
             && |Outbox(p.store, ActorOf(p.store))| == 0) ==>
      r == Step(p, Some(NothingToSync))
    ensures (!p.inFlight && SendUrl(SettingsOf(p.store)) != ""
             && |Outbox(p.store, ActorOf(p.store))| > 0) ==>
      r.report.None? && r.pump.store == p.store && r.pump.inFlight &&
      r.pump.phase == Sending(SendUrl(SettingsOf(p.store)), ActorOf(p.store), 0,
                              Outbox(p.store, ActorOf(p.store)))
    ensures r.report.Some? && r.report != Some(Ignored) ==> !r.pump.inFlight
  {
    if p.inFlight then Step(p, Some(Ignored))
    else
      var url := SendUrl(SettingsOf(p.store));
      if url == "" then Step(Pump(p.store, false, p.phase), Some(NoEndpoint))
      else
        var actor := ActorOf(p.store);
        var out := Outbox(p.store, actor);
        if |out| == 0 then Step(Pump(p.store, false, p.phase), Some(NothingToSync))
        else Step(Pump(p.store, true, Sending(url, actor, 0, out)), None)
  }

  /** The continuation of processNext once the send of the head returns, as
      corrected (see README, Findings): on success the head is removed from
      the outbox the item was read from, as that outbox stands NOW, and the
      delivery is counted for the same actor; on failure the run ends with the
      flag released and the store untouched. */
  function Deliver(p: Pump, ok: bool, today: string): (r: Step)
    requires Valid(p) && p.phase.Sending?
    ensures Valid(r.pump)
    ensures ok ==> (r.report.None? && r.pump.inFlight
                    && r.pump.phase == Pausing(p.phase.url, p.phase.sent + 1))
    ensures !ok ==> r == Step(Pump(p.store, false, Idle),
      Some(Synced(p.phase.sent, true, |Outbox(p.store, ActorOf(p.store))|)))
  {
    var actor := p.phase.actor;
    if ok then
      var st1 := PutOutbox(p.store, actor, Tail(Outbox(p.store, actor)));
      var st2 := RecordDelivery(st1, actor, today);
      Step(Pump(st2, true, Pausing(p.phase.url, p.phase.sent + 1)), None)
    else
      Step(Pump(p.store, false, Idle), Some(Synced(p.phase.sent, true, |Outbox(p.store, ActorOf(p.store))|)))
  }

  /** `a`'s sent log gained `n` deliveries dated `today` and no others. */
  ghost predicate Counted(st: Store, st': Store, a: Option<string>, n: nat, today: string) {
    && Count(Ledger(st', a), today) == Count(Ledger(st, a), today) + n
    && forall d :: d != today ==> Count(Ledger(st', a), d) == Count(Ledger(st, a), d)
  }

  /** Only `a`'s outbox and sent log changed; the signed-in actor did not. */
  ghost predicate Confined(st: Store, st': Store, a: Option<string>) {
    && Frame(st, st', {UserKey(a, OutboxName), UserKey(a, SentLogName)})
    && ActorOf(st') == ActorOf(st)
  }

  /** A successful send removes the head from the outbox of the actor the
      run belongs to, as that outbox now stands, counts one delivery for that
      actor under `today`, and writes nothing else. */
  lemma DeliverEffect(p: Pump, today: string)
    requires Valid(p) && p.phase.Sending?
    ensures var st' := Deliver(p, true, today).pump.store;
      && Outbox(st', p.phase.actor) == Tail(Outbox(p.store, p.phase.actor))
      && Counted(p.store, st', p.phase.actor, 1, today)
      && Confined(p.store, st', p.phase.actor)
  {
    var actor := p.phase.actor;
    var st1 := PutOutbox(p.store, actor, Tail(Outbox(p.store, actor)));
    var st2 := RecordDelivery(st1, actor, today);
    KeysUntouched(p.store, st1, st2, actor);
    NamesArePlain();
    UserKeyInjective(actor, OutboxName, actor, SentLogName);
  }

  /** The continuation as app.js:204-211 writes it: `out` is the array read
      BEFORE the await, and userKey is evaluated AFTER it. */
  function DeliverAsWritten(p: Pump, ok: bool, today: string): (r: Step)
    requires Valid(p) && p.phase.Sending?
    ensures Valid(r.pump)
    ensures ok ==> Outbox(r.pump.store, ActorOf(p.store)) == p.phase.snapshot[1..]
    ensures ok ==> Count(Ledger(r.pump.store, ActorOf(p.store)), today)
                   == Count(Ledger(p.store, ActorOf(p.store)), today) + 1
    ensures ok ==> Frame(p.store, r.pump.store,
                  {ScopedKey(p.store, OutboxName), ScopedKey(p.store, SentLogName)})
    ensures !ok ==> r == Deliver(p, ok, today)
  {
    if ok then
      var actor := ActorOf(p.store);
      var st1 := PutOutbox(p.store, actor, p.phase.snapshot[1..]);
      var st2 := RecordDelivery(st1, actor, today);
      KeysUntouched(p.store, st1, st2, actor);
      Step(Pump(st2, true, Pausing(p.phase.url, p.phase.sent + 1)), None)
    else
      Step(Pump(p.store, false, Idle), Some(Synced(p.phase.sent, true, |Outbox(p.store, ActorOf(p.store))|)))
  }

  /** Writing an actor's outbox and then its sent log touches those two keys
      only, and neither is the "currentUser" key. */
  lemma KeysUntouched(st: Store, st1: Store, st2: Store, a: Option<string>)
    requires Frame(st, st1, {UserKey(a, OutboxName)})
    requires Frame(st1, st2, {UserKey(a, SentLogName)})
    ensures Frame(st, st2, {UserKey(a, OutboxName), UserKey(a, SentLogName)})
    ensures ActorOf(st2) == ActorOf(st)
  {
    var keys := {UserKey(a, OutboxName), UserKey(a, SentLogName)};
    FrameWiden(st, st1, {UserKey(a, OutboxName)}, keys);
    FrameWiden(st1, st2, {UserKey(a, SentLogName)}, keys);
    FrameTrans(st, st1, st2, keys);
    NamesArePlain();
    ScopedKeyNotGlobal(a, OutboxName);
    ScopedKeyNotGlobal(a, SentLogName);
    assert Get(st2, CurrentUserKey) == Get(st, CurrentUserKey);
  }

  /** The pacing timer runs processNext again: it re-reads the signed-in
      actor's outbox; an empty one ends the run (finalize(false)), otherwise
      the new head is sent. The store is only read. */
  function Tick(p: Pump): (r: Step)
    requires Valid(p) && p.phase.Pausing?
    ensures Valid(r.pump) && r.pump.store == p.store
    ensures |Outbox(p.store, ActorOf(p.store))| == 0 ==>
      r == Step(Pump(p.store, false, Idle), Some(Synced(p.phase.sent, false, 0)))
    ensures |Outbox(p.store, ActorOf(p.store))| > 0 ==>
      r == Step(Pump(p.store, true, Sending(p.phase.url, ActorOf(p.store), p.phase.sent,
                                           Outbox(p.store, ActorOf(p.store)))), None)
  {
    var actor := ActorOf(p.store);
    var out := Outbox(p.store, actor);
    if |out| == 0 then Step(Pump(p.store, false, Idle), Some(Synced(p.phase.sent, false, 0)))
    else Step(Pump(p.store, true, Sending(p.phase.url, actor, p.phase.sent, out)), None)
  }

  /** One uninterrupted run: the pump state at the end, the report if the run
      ended, and the payloads handed to the endpoint, in order. */
  datatype Run = Run(pump: Pump, report: Option<Report>, attempts: seq<Payload>)

  /** A send is awaited and nothing else has happened since it began: the
      actor it was started for is still signed in and the item awaited is
      the head of that actor's outbox as it now stands. */
  ghost predicate Uninterrupted(p: Pump) {
    && Valid(p) && p.phase.Sending?
    && p.phase.actor == ActorOf(p.store)
    && p.phase.snapshot == Outbox(p.store, p.phase.actor)
  }

  /** A successful send followed by the pacing timer: the last item ends the
      run, otherwise the next item is sent. */
  function Advance(p: Pump, today: string): (r: Step)
    requires Uninterrupted(p)
    ensures r.pump.store == Deliver(p, true, today).pump.store
    ensures |p.phase.snapshot| == 1 ==>
      r == Step(Pump(r.pump.store, false, Idle), Some(Synced(p.phase.sent + 1, false, 0)))
    ensures |p.phase.snapshot| > 1 ==>
      (r.report.None? && Uninterrupted(r.pump) &&
       r.pump.phase == Sending(p.phase.url, p.phase.actor, p.phase.sent + 1, p.phase.snapshot[1..]))
  {
    DeliverEffect(p, today);
    Tick(Deliver(p, true, today).pump)
  }

  /** Carries a started run forward. `replies[i]` is the outcome of the i-th
      send from here on; when the replies run out, the run is left awaiting
      a reply. */
  function Continue(p: Pump, replies: seq<bool>, today: string): (r: Run)
    requires Uninterrupted(p)
    ensures Valid(r.pump)
    decreases |replies|
  {
    if |replies| == 0 then Run(p, None, [])
    else
      var item := p.phase.snapshot[0];
      if !replies[0] then
        var d := Deliver(p, false, today);
        Run(d.pump, d.report, [item])
      else
        var t := Advance(p, today);
        if t.report.Some? then Run(t.pump, t.report, [item])
        else
          var rest := Continue(t.pump, replies[1..], today);
          Run(rest.pump, rest.report, [item] + rest.attempts)
  }

  /** One call of syncOutbox followed by its whole run, with nothing else
      happening meanwhile. */
  function Drain(p: Pump, replies: seq<bool>, today: string): (r: Run)
    requires Valid(p)
    ensures Valid(r.pump)
  {
    var s := Sync(p);
    if s.report.Some? then Run(s.pump, s.report, []) else Continue(s.pump, replies, today)
  }

  /** The number of leading successes among the first `n` replies: how many
      items a run over an `n`-item outbox delivers before it halts. */
  function Successes(replies: seq<bool>, n: nat): (k: nat)
    ensures k <= n && k <= |replies|
    ensures forall i :: 0 <= i < k ==> replies[i]
    ensures k < n && k < |replies| ==> !replies[k]
  {
    if n == 0 || |replies| == 0 || !replies[0] then 0
    else 1 + Successes(replies[1..], n - 1)
  }

  /** Whether the run over an `n`-item outbox halts on a failed send. */
  predicate Halts(replies: seq<bool>, n: nat) {
    Successes(replies, n) < n && Successes(replies, n) < |replies|
  }

  /** How many sends the run makes: the successes, plus the failed one. */
  function Attempted(replies: seq<bool>, n: nat): nat {
    Successes(replies, n) + if Halts(replies, n) then 1 else 0
  }

  /** How a run over the outbox `q` started with `j` items already sent
      stands at the end: all delivered ends the run cleanly, a failure ends
      it reporting what is left, and a run that ran out of replies is still
      awaiting the send of the first undelivered item. */
  ghost predicate Ended(a: Option<string>, q: seq<Payload>, j: nat, url: string,
                        replies: seq<bool>, r: Run)
  {
    Valid(r.pump) && Finished(q, j, replies, r) && Stopped(q, j, replies, r)
    && Pending(a, q, j, url, replies, r)
  }

  ghost predicate Finished(q: seq<Payload>, j: nat, replies: seq<bool>, r: Run) {
    Successes(replies, |q|) == |q| ==>
      !r.pump.inFlight && r.report == Some(Synced(j + |q|, false, 0))
  }

  ghost predicate Stopped(q: seq<Payload>, j: nat, replies: seq<bool>, r: Run) {
    Halts(replies, |q|) ==>
      var k := Successes(replies, |q|);
      !r.pump.inFlight && r.report == Some(Synced(j + k, true, |q| - k))
  }

  ghost predicate Pending(a: Option<string>, q: seq<Payload>, j: nat, url: string,
                          replies: seq<bool>, r: Run)
  {
    !Halts(replies, |q|) && Successes(replies, |q|) < |q| ==>
      var k := Successes(replies, |q|);
      r.report.None? && r.pump.inFlight && r.pump.phase == Sending(url, a, j + k, q[k..])
  }

  /** The effect of a run over the outbox `q` of actor `a`, started from
      store `st` with `j` items already sent: the first k = Successes items
      are handed over in order, removed from the outbox and each counted
      once under `today`; the run halts at the first failure, which leaves
      the failed item and everything after it queued in order; only `a`'s
      outbox and sent log change; the flag is released whenever the run
      ends. */
  ghost predicate Drained(st: Store, a: Option<string>, q: seq<Payload>, j: nat, url: string,
                          replies: seq<bool>, today: string, r: Run)
  {
    && r.attempts == q[..Attempted(replies, |q|)]
    && Outbox(r.pump.store, a) == q[Successes(replies, |q|)..]
    && Counted(st, r.pump.store, a, Successes(replies, |q|), today)
    && Confined(st, r.pump.store, a)
    && Ended(a, q, j, url, replies, r)
  }

  lemma CountedTrans(st1: Store, st2: Store, st3: Store, a: Option<string>, m: nat, n: nat, today: string)
    requires Counted(st1, st2, a, m, today) && Counted(st2, st3, a, n, today)
    ensures Counted(st1, st3, a, m + n, today)
  {
  }

  lemma ConfinedTrans(st1: Store, st2: Store, st3: Store, a: Option<string>)
    requires Confined(st1, st2, a) && Confined(st2, st3, a)
    ensures Confined(st1, st3, a)
  {
    FrameTrans(st1, st2, st3, {UserKey(a, OutboxName), UserKey(a, SentLogName)});
  }

  /** One more leading success adds one to both counts. */
  lemma SuccessesStep(replies: seq<bool>, n: nat)
    requires n > 0 && |replies| > 0 && replies[0]
    ensures Successes(replies, n) == 1 + Successes(replies[1..], n - 1)
    ensures Halts(replies, n) == Halts(replies[1..], n - 1)
    ensures Attempted(replies, n) == 1 + Attempted(replies[1..], n - 1)
  {
  }

  /** The attempts of a run whose first send succeeds: the head, then those
      of the run over the rest. */
  lemma AttemptsStep(q: seq<Payload>, replies: seq<bool>, rest: seq<Payload>)
    requires |replies| > 0 && replies[0] && |q| > 1
    requires rest == q[1..][..Attempted(replies[1..], |q| - 1)]
    ensures [q[0]] + rest == q[..Attempted(replies, |q|)]
  {
    SuccessesStep(replies, |q|);
    var m := Attempted(replies[1..], |q| - 1);
    assert [q[0]] + q[1..][..m] == q[..m + 1];
  }

  /** What a run whose first send succeeds leaves queued is what the run
      over the rest leaves. */
  lemma LeftStep(q: seq<Payload>, replies: seq<bool>)
    requires |replies| > 0 && replies[0] && |q| > 1
    ensures q[1..][Successes(replies[1..], |q| - 1)..] == q[Successes(replies, |q|)..]
  {
    SuccessesStep(replies, |q|);
  }

  /** The payloads a run hands over: a prefix of the outbox, in order. */
  lemma {:induction false} ContinueAttempts(p: Pump, replies: seq<bool>, today: string)
    requires Uninterrupted(p)
    ensures Continue(p, replies, today).attempts
            == p.phase.snapshot[..Attempted(replies, |p.phase.snapshot|)]
    decreases |replies|
  {
    var q := p.phase.snapshot;
    if |replies| > 0 && replies[0] {
      SuccessesStep(replies, |q|);
      var t := Advance(p, today);
      if |q| > 1 {
        ContinueAttempts(t.pump, replies[1..], today);
        AttemptsStep(q, replies, Continue(t.pump, replies[1..], today).attempts);
      }
    }
  }

  /** What a run leaves queued: the outbox minus the delivered prefix. */
  lemma {:induction false} ContinueLeaves(p: Pump, replies: seq<bool>, today: string)
    requires Uninterrupted(p)
    ensures Outbox(Continue(p, replies, today).pump.store, p.phase.actor)
            == p.phase.snapshot[Successes(replies, |p.phase.snapshot|)..]
    decreases |replies|
  {
    var q := p.phase.snapshot;
    if |replies| == 0 || !replies[0] {
      assert q[0..] == q;
    } else {
      SuccessesStep(replies, |q|);
      var t := Advance(p, today);
      DeliverEffect(p, today);
      if |q| > 1 {
        ContinueLeaves(t.pump, replies[1..], today);
        LeftStep(q, replies);
      }
    }
  }

  /** A run counts each delivered item once, under `today`. */
  lemma {:induction false} ContinueCounts(p: Pump, replies: seq<bool>, today: string)
    requires Uninterrupted(p)
    ensures Counted(p.store, Continue(p, replies, today).pump.store, p.phase.actor,
                    Successes(replies, |p.phase.snapshot|), today)
    decreases |replies|
  {
    var q := p.phase.snapshot;
    if |replies| > 0 && replies[0] {
      SuccessesStep(replies, |q|);
      var t := Advance(p, today);
      DeliverEffect(p, today);
      if |q| > 1 {
        ContinueCounts(t.pump, replies[1..], today);
        CountedTrans(p.store, t.pump.store, Continue(t.pump, replies[1..], today).pump.store,
                     p.phase.actor, 1, Successes(replies[1..], |q| - 1), today);
      }
    }
  }

  /** A run writes nothing but the running actor's outbox and sent log. */
  lemma {:induction false} ContinueConfined(p: Pump, replies: seq<bool>, today: string)
    requires Uninterrupted(p)
    ensures Confined(p.store, Continue(p, replies, today).pump.store, p.phase.actor)
    decreases |replies|
  {
    if |replies| > 0 && replies[0] {
      var t := Advance(p, today);
      DeliverEffect(p, today);
      if |p.phase.snapshot| > 1 {
        ContinueConfined(t.pump, replies[1..], today);
        ConfinedTrans(p.store, t.pump.store, Continue(t.pump, replies[1..], today).pump.store,
                      p.phase.actor);
      }
    }
  }

  /** A run whose sends all succeed ends cleanly. */
  lemma {:induction false} ContinueFinishes(p: Pump, replies: seq<bool>, today: string)
    requires Uninterrupted(p)
    ensures Finished(p.phase.snapshot, p.phase.sent, replies, Continue(p, replies, today))
    decreases |replies|
  {
    var q := p.phase.snapshot;
    if |replies| == 0 || !replies[0] {
      assert Successes(replies, |q|) == 0;
    } else {
      SuccessesStep(replies, |q|);
      var t := Advance(p, today);
      if |q| > 1 {
        var rest := Continue(t.pump, replies[1..], today);
        ContinueFinishes(t.pump, replies[1..], today);
        assert Continue(p, replies, today).pump == rest.pump;
        assert Continue(p, replies, today).report == rest.report;
      }
    }
  }

  /** A halt after a successful first send is the halt of the run over the
      rest, one item further on. */
  lemma StoppedStep(q: seq<Payload>, j: nat, replies: seq<bool>, r: Run, rest: Run)
    requires |q| > 1 && |replies| > 0 && replies[0]
    requires Stopped(q[1..], j + 1, replies[1..], rest)
    requires r.pump == rest.pump && r.report == rest.report
    ensures Stopped(q, j, replies, r)
  {
    SuccessesStep(replies, |q|);
  }

  /** A run that meets a failure ends there, reporting what is left. */
  lemma {:induction false} ContinueStops(p: Pump, replies: seq<bool>, today: string)
    requires Uninterrupted(p)
    ensures Stopped(p.phase.snapshot, p.phase.sent, replies, Continue(p, replies, today))
    decreases |replies|
  {
    var q := p.phase.snapshot;
    if |replies| > 0 && !replies[0] {
      var d := Deliver(p, false, today);
      assert Continue(p, replies, today) == Run(d.pump, d.report, [q[0]]);
    } else if |replies| > 0 {
      var t := Advance(p, today);
      if |q| > 1 {
        var rest := Continue(t.pump, replies[1..], today);
        ContinueStops(t.pump, replies[1..], today);
        assert Continue(p, replies, today).pump == rest.pump;
        assert Continue(p, replies, today).report == rest.report;
        StoppedStep(q, p.phase.sent, replies, Continue(p, replies, today), rest);
      } else {
        SuccessesStep(replies, |q|);
        assert !Halts(replies[1..], 0);
      }
    }
  }

  /** A run that runs out of replies awaits the send of the first item not
      yet delivered. */
  lemma {:induction false} ContinuePends(p: Pump, replies: seq<bool>, today: string)
    requires Uninterrupted(p)
    ensures Pending(p.phase.actor, p.phase.snapshot, p.phase.sent, p.phase.url, replies,
                    Continue(p, replies, today))
    decreases |replies|
  {
    var q := p.phase.snapshot;
    if |replies| == 0 {
      assert q[0..] == q;
    } else if !replies[0] {
      assert Halts(replies, |q|);
    } else {
      SuccessesStep(replies, |q|);
      var t := Advance(p, today);
      if |q| > 1 {
        var rest := Continue(t.pump, replies[1..], today);
        ContinuePends(t.pump, replies[1..], today);
        LeftStep(q, replies);
        assert Continue(p, replies, today).pump == rest.pump;
        assert Continue(p, replies, today).report == rest.report;
      }
    }
  }

  /** How a run ends, and that the flag is clear exactly when it has. */
  lemma ContinueEnds(p: Pump, replies: seq<bool>, today: string)
    requires Uninterrupted(p)
    ensures Ended(p.phase.actor, p.phase.snapshot, p.phase.sent, p.phase.url, replies,
                  Continue(p, replies, today))
  {
    ContinueFinishes(p, replies, today);
    ContinueStops(p, replies, today);
    ContinuePends(p, replies, today);
  }

  /** A started run that nothing interrupts behaves as Drained says. */
  lemma ContinueSpec(p: Pump, replies: seq<bool>, today: string)
    requires Uninterrupted(p)
    ensures Drained(p.store, p.phase.actor, p.phase.snapshot, p.phase.sent, p.phase.url,
                    replies, today, Continue(p, replies, today))
  {
    ContinueAttempts(p, replies, today);
    ContinueLeaves(p, replies, today);
    ContinueCounts(p, replies, today);
    ContinueConfined(p, replies, today);
    ContinueEnds(p, replies, today);
  }

  /** The whole of one syncOutbox call when nothing interleaves with it. */
  lemma DrainSpec(p: Pump, replies: seq<bool>, today: string)
    requires Valid(p)
    ensures var r := Drain(p, replies, today);
      var a := ActorOf(p.store);
      var q := Outbox(p.store, a);
      var url := SendUrl(SettingsOf(p.store));
      && (p.inFlight ==> r == Run(p, Some(Ignored), []))
      && (!p.inFlight && url == "" ==> r == Run(p, Some(NoEndpoint), []))
      && (!p.inFlight && url != "" && |q| == 0 ==> r == Run(p, Some(NothingToSync), []))
      && (!p.inFlight && url != "" && |q| > 0 ==> Drained(p.store, a, q, 0, url, replies, today, r))
  {
    var s := Sync(p);
    if s.report.None? {
      ContinueSpec(s.pump, replies, today);
    }
  }

  /** Every run, however it ends, leaves the flag clear unless a reply is
      still awaited. */
  lemma FlagReleased(p: Pump, replies: seq<bool>, today: string)
    requires Valid(p) && !p.inFlight
    ensures var r := Drain(p, replies, today);
      r.report.Some? ==> !r.pump.inFlight && r.pump.phase.Idle?
  {
    DrainSpec(p, replies, today);
  }

  /** A run that halted on a failure, followed by a second run whose sends
      all succeed: the second run starts with the item that failed and
      delivers the rest in their original order, emptying the outbox; taken
      together the two runs hand every queued item to the endpoint, in queue
      order. */
  lemma RetryDeliversRest(p: Pump, first: seq<bool>, second: seq<bool>, today: string,
                          r1: Run, r2: Run)
    requires Valid(p) && !p.inFlight
    requires r1 == Drain(p, first, today)
    requires r1.report.Some? && r1.report.value.Synced? && r1.report.value.stopped
    requires r2 == Drain(r1.pump, second, today)
    requires |second| >= |Outbox(p.store, ActorOf(p.store))|
    requires forall i :: 0 <= i < |second| ==> second[i]
    ensures var q := Outbox(p.store, ActorOf(p.store));
      var k := r1.report.value.sent;
      && k < |q|
      && r1.attempts == q[..k + 1]
      && r2.attempts == q[k..]
      && Outbox(r2.pump.store, ActorOf(p.store)) == []
      && r2.report == Some(Synced(|q| - k, false, 0))
  {
    var a := ActorOf(p.store);
    var q := Outbox(p.store, a);
    var k := r1.report.value.sent;
    HaltedRun(p, first, today);
    RunKeepsContext(p, first, today);
    assert ActorOf(r1.pump.store) == a;
    assert Outbox(r1.pump.store, a) == q[k..];
    assert SendUrl(SettingsOf(r1.pump.store)) != "";
    assert |second| >= |q[k..]| > 0;
    CleanRun(r1.pump, second, today);
  }

  /** A call that ends with a Synced report started a run: an endpoint is
      configured and the signed-in actor's outbox was not empty. */
  lemma SyncedRunStarted(p: Pump, replies: seq<bool>, today: string)
    requires Valid(p) && !p.inFlight
    requires Drain(p, replies, today).report.Some? && Drain(p, replies, today).report.value.Synced?
    ensures Sync(p).report.None?
    ensures Drain(p, replies, today) == Continue(Sync(p).pump, replies, today)
    ensures SendUrl(SettingsOf(p.store)) != "" && |Outbox(p.store, ActorOf(p.store))| > 0
  {
  }

  /** A run reporting a failure sent the items up to and including the one
      that failed, and left that one and the rest queued. */
  lemma HaltedRun(p: Pump, replies: seq<bool>, today: string)
    requires Valid(p) && !p.inFlight
    requires var r := Drain(p, replies, today);
      r.report.Some? && r.report.value.Synced? && r.report.value.stopped
    ensures var a := ActorOf(p.store);
      var q := Outbox(p.store, a);
      var r := Drain(p, replies, today);
      var k := r.report.value.sent;
      && k < |q|
      && r.attempts == q[..k + 1]
      && Outbox(r.pump.store, a) == q[k..]
      && !r.pump.inFlight
  {
    SyncedRunStarted(p, replies, today);
    var c := Sync(p).pump;
    var q := c.phase.snapshot;
    var r := Continue(c, replies, today);
    StoppedOnlyIfHalts(c, replies, today);
    ContinueStops(c, replies, today);
    var k := Successes(replies, |q|);
    assert Halts(replies, |q|) && r.report.value.sent == k;
    assert Attempted(replies, |q|) == k + 1;
    ContinueAttempts(c, replies, today);
    ContinueLeaves(c, replies, today);
  }

  /** Only a failed send makes a run report that it stopped. */
  lemma StoppedOnlyIfHalts(p: Pump, replies: seq<bool>, today: string)
    requires Uninterrupted(p)
    ensures var r := Continue(p, replies, today);
      r.report.Some? && r.report.value.Synced? && r.report.value.stopped ==>
      Halts(replies, |p.phase.snapshot|)
  {
    ContinueFinishes(p, replies, today);
    ContinuePends(p, replies, today);
  }

  /** A run changes neither the endpoint nor who is signed in. */
  lemma RunKeepsContext(p: Pump, replies: seq<bool>, today: string)
    requires Valid(p) && !p.inFlight
    requires Drain(p, replies, today).report.Some? && Drain(p, replies, today).report.value.Synced?
    ensures var r := Drain(p, replies, today);
      && ActorOf(r.pump.store) == ActorOf(p.store)
      && SendUrl(SettingsOf(p.store)) != ""
      && SendUrl(SettingsOf(r.pump.store)) == SendUrl(SettingsOf(p.store))
  {
    SyncedRunStarted(p, replies, today);
    var a := ActorOf(p.store);
    var r := Drain(p, replies, today);
    ContinueConfined(Sync(p).pump, replies, today);
    var keys := {UserKey(a, OutboxName), UserKey(a, SentLogName)};
    FrameWiden(p.store, r.pump.store, keys, keys + {UserKey(a, DraftName)});
    Isolation(p.store, r.pump.store, a);
  }

  /** A run whose sends all succeed delivers the whole outbox in order and
      leaves it empty. */
  lemma CleanRun(p: Pump, replies: seq<bool>, today: string)
    requires Valid(p) && !p.inFlight && SendUrl(SettingsOf(p.store)) != ""
    requires |replies| >= |Outbox(p.store, ActorOf(p.store))| > 0
    requires forall i :: 0 <= i < |replies| ==> replies[i]
    ensures var q := Outbox(p.store, ActorOf(p.store));
      var r := Drain(p, replies, today);
      && r.attempts == q
      && Outbox(r.pump.store, ActorOf(p.store)) == []
      && r.report == Some(Synced(|q|, false, 0))
  {
    var q := Outbox(p.store, ActorOf(p.store));
    DrainSpec(p, replies, today);
    AllSucceed(replies, |q|);
    assert q[..|q|] == q;
  }

  /** Replies that are all successes deliver everything. */
  lemma AllSucceed(replies: seq<bool>, n: nat)
    requires n <= |replies|
    requires forall i :: 0 <= i < |replies| ==> replies[i]
    ensures Successes(replies, n) == n && !Halts(replies, n) && Attempted(replies, n) == n
  {
  }

  /** Nobody else's queue or log is touched by a run. */
  lemma DrainIsolation(p: Pump, replies: seq<bool>, today: string)
    requires Valid(p)
    ensures var r := Drain(p, replies, today);
      forall b :: b != ActorOf(p.store) ==>
        Outbox(r.pump.store, b) == Outbox(p.store, b) && Ledger(r.pump.store, b) == Ledger(p.store, b)
  {
    var a := ActorOf(p.store);
    var r := Drain(p, replies, today);
    DrainSpec(p, replies, today);
    var keys := {UserKey(a, OutboxName), UserKey(a, SentLogName)};
    if !p.inFlight && SendUrl(SettingsOf(p.store)) != "" && |Outbox(p.store, a)| > 0 {
      FrameWiden(p.store, r.pump.store, keys, keys + {UserKey(a, DraftName)});
      Isolation(p.store, r.pump.store, a);
    }
  }

  // ---- The two continuations compared ----

  /** One step: when nothing ran during this send, the corrected
      continuation and the one app.js runs have the same effect, so each
      uninterrupted step agrees with Drain's. With interleaved submissions
      or a logout they differ (the lemmas below). */
  lemma DeliverAgreesWhenUninterrupted(p: Pump, ok: bool, today: string)
    requires Valid(p) && p.phase.Sending?
    requires p.phase.actor == ActorOf(p.store)
    requires p.phase.snapshot == Outbox(p.store, p.phase.actor)
    ensures DeliverAsWritten(p, ok, today) == Deliver(p, ok, today)
  {
  }

  /** As written: a payload queued (by a failed submission) while a send is
      awaited is overwritten when the send succeeds. The outbox ends as the
      pre-send snapshot minus its head, so the new payload is neither sent
      nor queued. */
  lemma EnqueueDuringSendLost(p: Pump, x: Payload, today: string)
    requires Valid(p) && p.phase.Sending?
    requires p.phase.actor == ActorOf(p.store)
    requires p.phase.snapshot == Outbox(p.store, p.phase.actor)
    ensures var a := p.phase.actor;
      var p1 := p.(store := QueuePayload(p.store, x));
      var r := DeliverAsWritten(p1, true, today);
      && Outbox(p1.store, a) == p.phase.snapshot + [x]
      && Outbox(r.pump.store, a) == p.phase.snapshot[1..]
      && |Outbox(r.pump.store, a)| == |Outbox(p1.store, a)| - 2
  {
  }

  /** Corrected: the payload queued during the send stays queued behind the
      rest. */
  lemma EnqueueDuringSendKept(p: Pump, x: Payload, today: string)
    requires Valid(p) && p.phase.Sending?
    requires p.phase.actor == ActorOf(p.store)
    requires p.phase.snapshot == Outbox(p.store, p.phase.actor)
    ensures var a := p.phase.actor;
      var p1 := p.(store := QueuePayload(p.store, x));
      var r := Deliver(p1, true, today);
      Outbox(r.pump.store, a) == p.phase.snapshot[1..] + [x]
  {
    var a := p.phase.actor;
    var q := p.phase.snapshot;
    DeliverEffect(p.(store := QueuePayload(p.store, x)), today);
    assert (q + [x])[1..] == q[1..] + [x];
  }

  /** As written: a user who signs out while a send is awaited has the rest
      of their outbox written over the guest outbox, while their own outbox
      keeps the item just delivered, to be sent again. */
  lemma SignOutDuringSendMisfiles(p: Pump, today: string)
    requires Valid(p) && p.phase.Sending?
    requires p.phase.actor == ActorOf(p.store) && p.phase.actor.Some?
    requires p.phase.snapshot == Outbox(p.store, p.phase.actor)
    ensures var p1 := p.(store := SignOut(p.store));
      var r := DeliverAsWritten(p1, true, today);
      && Outbox(r.pump.store, None) == p.phase.snapshot[1..]
      && Outbox(r.pump.store, p.phase.actor) == p.phase.snapshot
  {
    var a := p.phase.actor;
    var st1 := SignOut(p.store);
    NamesArePlain();
    ScopedKeyNotGlobal(a, OutboxName);
    assert Outbox(st1, a) == Outbox(p.store, a);
    UserKeyInjective(a, OutboxName, None, OutboxName);
    UserKeyInjective(a, OutboxName, None, SentLogName);
  }

  /** Corrected: signing out during a send leaves the guest outbox alone and
      removes the delivered item from the outbox it came from. */
  lemma SignOutDuringSendFiled(p: Pump, today: string)
    requires Valid(p) && p.phase.Sending?
    requires p.phase.actor == ActorOf(p.store) && p.phase.actor.Some?
    requires p.phase.snapshot == Outbox(p.store, p.phase.actor)
    ensures var p1 := p.(store := SignOut(p.store));
      var r := Deliver(p1, true, today);
      && Outbox(r.pump.store, None) == Outbox(p.store, None)
      && Outbox(r.pump.store, p.phase.actor) == p.phase.snapshot[1..]
  {
    var a := p.phase.actor;
    var st1 := SignOut(p.store);
    NamesArePlain();
    ScopedKeyNotGlobal(a, OutboxName);
    ScopedKeyNotGlobal(None, OutboxName);
    DeliverEffect(p.(store := st1), today);
    assert Outbox(st1, a) == Outbox(p.store, a);
    assert Outbox(st1, None) == Outbox(p.store, None);
    UserKeyInjective(a, OutboxName, None, OutboxName);
    UserKeyInjective(a, SentLogName, None, OutboxName);
  }
}

=== FILE: order.dfy ===
/** Sorting under an abstract collation. The application sorts meter-type
    names with `localeCompare`; the model takes that comparison as a parameter
    `less` and assumes only that it is a strict total order on strings. */
module Order {
  import opened Base

  /** `less` is irreflexive, transitive and relates any two distinct strings. */
  ghost predicate StrictTotalOrder(less: (string, string) -> bool) {
    && (forall x :: !less(x, x))
    && (forall x, y, z :: less(x, y) && less(y, z) ==> less(x, z))
    && (forall x, y :: x != y ==> less(x, y) || less(y, x))
  }

  /** Each element is strictly below every later one. */
  ghost predicate StrictlySorted(xs: seq<string>, less: (string, string) -> bool) {
    forall i, j :: 0 <= i < j < |xs| ==> less(xs[i], xs[j])
  }

  lemma SortedHasNoDup(xs: seq<string>, less: (string, string) -> bool)
    requires StrictTotalOrder(less)
    requires StrictlySorted(xs, less)
    ensures NoDup(xs)
  {
  }

  /** `h` is below every element of `ys`. */
  ghost predicate Below(h: string, ys: seq<string>, less: (string, string) -> bool) {
    forall y :: y in ys ==> less(h, y)
  }

  /** A sorted sequence stays sorted when an element below all of it is put
      in front. */
  lemma ConsSorted(h: string, ys: seq<string>, less: (string, string) -> bool)
    requires StrictlySorted(ys, less) && Below(h, ys, less)
    ensures StrictlySorted([h] + ys, less)
  {
    forall i, j | 0 <= i < j < |[h] + ys| ensures less(([h] + ys)[i], ([h] + ys)[j]) {
      if i == 0 {
        assert ([h] + ys)[j] == ys[j - 1];
        assert ys[j - 1] in ys;
      }
    }
  }

  /** Whatever is below every element of `ys` and below `x` is below every
      element of a sequence holding the same elements as `ys` plus `x`. */
  lemma BelowMerged(h: string, x: string, ys: seq<string>, zs: seq<string>,
                    less: (string, string) -> bool)
    requires Below(h, ys, less) && less(h, x)
    requires multiset(zs) == multiset(ys) + multiset{x}
    ensures Below(h, zs, less)
  {
    forall z | z in zs ensures less(h, z) {
      assert z in multiset(zs);
      if z != x {
        assert z in multiset(ys);
      }
    }
  }

  /** Places `x` before the first element it is below. */
  function Insert(x: string, xs: seq<string>, less: (string, string) -> bool): (r: seq<string>)
    requires StrictTotalOrder(less)
    ensures multiset(r) == multiset(xs) + multiset{x}
    ensures StrictlySorted(xs, less) && x !in xs ==> StrictlySorted(r, less)
  {
    if |xs| == 0 then [x]
    else if less(x, xs[0]) then
      assert StrictlySorted(xs, less) ==> StrictlySorted([x] + xs, less) by {
        if StrictlySorted(xs, less) {
          forall y | y in xs ensures less(x, y) {
            var k :| 0 <= k < |xs| && xs[k] == y;
            if k > 0 { assert less(xs[0], xs[k]); }
          }
          ConsSorted(x, xs, less);
        }
      }
      [x] + xs
    else
      var rest := Insert(x, xs[1..], less);
      assert xs == [xs[0]] + xs[1..];
      assert StrictlySorted(xs, less) && x !in xs ==> StrictlySorted([xs[0]] + rest, less) by {
        if StrictlySorted(xs, less) && x !in xs {
          forall y | y in xs[1..] ensures less(xs[0], y) {
            var k :| 0 <= k < |xs[1..]| && xs[1..][k] == y;
            assert xs[k + 1] == y;
          }
          BelowMerged(xs[0], x, xs[1..], rest, less);
          ConsSorted(xs[0], rest, less);
        }
      }
      [xs[0]] + rest
  }

  /** Insertion sort. On a duplicate-free input the output is the unique
      strictly increasing arrangement of the input's elements (see
      SortedUnique), so it agrees with whatever algorithm `Array.prototype.sort`
      uses. */
  function Sort(xs: seq<string>, less: (string, string) -> bool): (r: seq<string>)
    requires StrictTotalOrder(less)
    ensures multiset(r) == multiset(xs)
    ensures NoDup(xs) ==> StrictlySorted(r, less)
  {
    if |xs| == 0 then []
    else
      var rest := Sort(xs[1..], less);
      assert xs == [xs[0]] + xs[1..];
      assert NoDup(xs) ==> xs[0] !in rest by {
        if NoDup(xs) {
          HeadNotInTail(xs);
          assert xs[0] !in multiset(xs[1..]);
        }
      }
      Insert(xs[0], rest, less)
  }

  /** Two strictly sorted sequences with the same elements are equal. */
  lemma {:induction false} SortedUnique(a: seq<string>, b: seq<string>, less: (string, string) -> bool)
    requires StrictTotalOrder(less)
    requires StrictlySorted(a, less) && StrictlySorted(b, less)
    requires forall x :: x in a <==> x in b
    ensures a == b
  {
    if |a| == 0 {
      if |b| > 0 {
        HeadIn(b);
        assert false;
      }
    } else {
      assert a[0] in b;
      assert |b| > 0;
      HeadIn(a);
      HeadIn(b);
      assert a[0] == b[0];
      forall x ensures x in a[1..] <==> x in b[1..] {
        assert a == [a[0]] + a[1..];
        assert b == [b[0]] + b[1..];
        if x in a[1..] {
          var i :| 0 <= i < |a[1..]| && a[1..][i] == x;
          assert less(a[0], a[i + 1]);
          assert x != b[0];
          assert x in b;
        }
        if x in b[1..] {
          var i :| 0 <= i < |b[1..]| && b[1..][i] == x;
          assert less(b[0], b[i + 1]);
          assert x != a[0];
          assert x in a;
        }
      }
      SortedUnique(a[1..], b[1..], less);
      assert a == [a[0]] + a[1..];
      assert b == [b[0]] + b[1..];
    }
  }

  /** The elements of a sorted copy are those of the input. */
  lemma SortElements(xs: seq<string>, less: (string, string) -> bool, x: string)
    requires StrictTotalOrder(less)
    ensures x in Sort(xs, less) <==> x in xs
  {
    assert x in Sort(xs, less) <==> x in multiset(Sort(xs, less));
    assert x in xs <==> x in multiset(xs);
  }
}

=== FILE: queue.dfy ===
/** The outbox queue and the sent log as stored state: enqueueing a payload
    (queuePayload, app.js:168-172) and counting a delivery against a date
    (app.js:207-210 and 512-515). */
module Queue {
  import opened Base
  import opened Records
  import opened Storage

  /** `log[today] = (log[today] || 0) + 1`. */
  function Bump(log: map<string, nat>, today: string): (r: map<string, nat>)
    ensures Count(r, today) == Count(log, today) + 1
    ensures forall d :: d != today ==> Count(r, d) == Count(log, d)
  {
    log[today := Count(log, today) + 1]
  }

  /** Writes the outbox of `actor`. */
  function PutOutbox(st: Store, actor: Option<string>, items: seq<Payload>): (r: Store)
    ensures Outbox(r, actor) == items
    ensures Frame(st, r, {UserKey(actor, OutboxName)})
  {
    Set(st, UserKey(actor, OutboxName), QueueVal(items))
  }

  /** Appends `p` at the tail of `actor`'s outbox; the earlier items keep
      their places and nothing else is written. */
  function QueueFor(st: Store, actor: Option<string>, p: Payload): (r: Store)
    ensures Outbox(r, actor) == Outbox(st, actor) + [p]
    ensures Frame(st, r, {UserKey(actor, OutboxName)})
    ensures ActorOf(r) == ActorOf(st)
  {
    var r := PutOutbox(st, actor, Outbox(st, actor) + [p]);
    NamesArePlain();
    ScopedKeyNotGlobal(actor, OutboxName);
    assert Get(r, CurrentUserKey) == Get(st, CurrentUserKey);
    r
  }

  /** queuePayload: the outbox it appends to is the one `userKey` names
      when it runs, that of whoever is signed in at that moment. */
  function QueuePayload(st: Store, p: Payload): (r: Store)
    ensures Outbox(r, ActorOf(st)) == Outbox(st, ActorOf(st)) + [p]
    ensures Frame(st, r, {ScopedKey(st, OutboxName)})
    ensures ActorOf(r) == ActorOf(st)
  {
    QueueFor(st, ActorOf(st), p)
  }

  /** Counts one delivery for `actor` on `today`; no other date and no other
      key changes. */
  function RecordDelivery(st: Store, actor: Option<string>, today: string): (r: Store)
    ensures Count(Ledger(r, actor), today) == Count(Ledger(st, actor), today) + 1
    ensures forall d :: d != today ==> Count(Ledger(r, actor), d) == Count(Ledger(st, actor), d)
    ensures Frame(st, r, {UserKey(actor, SentLogName)})
  {
    var key := UserKey(actor, SentLogName);
    Set(st, key, LedgerVal(Bump(LedgerAt(st, key), today)))
  }

  /** Enqueueing `ps` one by one yields `ps` at the tail in the same order:
      the queue is first-in first-out on the way in. */
  lemma {:induction false} QueueInOrder(st: Store, ps: seq<Payload>)
    ensures var r := QueueAll(st, ps);
      Outbox(r, ActorOf(st)) == Outbox(st, ActorOf(st)) + ps && ActorOf(r) == ActorOf(st)
    decreases |ps|
  {
    if |ps| > 0 {
      var st1 := QueuePayload(st, ps[0]);
      QueueInOrder(st1, ps[1..]);
      assert ps == [ps[0]] + ps[1..];
    }
  }

  /** Enqueue each payload of `ps` in turn. */
  function QueueAll(st: Store, ps: seq<Payload>): Store
    decreases |ps|
  {
    if |ps| == 0 then st else QueueAll(QueuePayload(st, ps[0]), ps[1..])
  }
}

=== FILE: records.dfy ===
/** The records the application builds and stores: the capture form as
    typed, the submission payload (app.js:472-500), the signed-in session
    (app.js:326) and the last GPS fix (app.js:289). */
module Records {
  import opened Base

  /** The time zone every date label is formatted in (app.js:2). */
  const Tz: string := "Africa/Johannesburg"

  /** Payload schema version (app.js:474). */
  const SchemaVersion: int := 1

  /** The raw values of the capture form's fields (FIELD_IDS, app.js:145). */
  datatype Form = Form(
    stand: string, area: string, street: string, clientInfo: string,
    elecSn: string, elecType: string, minisub: string, feeder: string,
    supplyCable: string, breakerState: string,
    waterSn: string, waterType: string, standNote: string)

  /** A position fix; the coordinates are only copied, never computed on. */
  datatype GpsFix = GpsFix(latitude: real, longitude: real, accuracy: real, ts: string)

  /** The signed-in user record stored under "currentUser". */
  datatype Session = Session(u: string, role: string, ts: string, tz: string)

  datatype Meta = Meta(
    version: int, submittedAt: string, timezone: string, team: Option<string>,
    ua: string, user: Option<string>, clientId: string)

  datatype Electrical = Electrical(
    sn: string, kind: string, minisub: string, feeder: string,
    supplyCable: string, breakerState: string)

  datatype Water = Water(sn: string, kind: string)

  datatype Record = Record(
    stand: string, area: string, street: string, clientInfo: string,
    electrical: Electrical, water: Water, standNote: string, gps: Option<GpsFix>)

  /** The form values a record carries, read back field by field. */
  function FormOf(r: Record): Form {
    Form(r.stand, r.area, r.street, r.clientInfo,
         r.electrical.sn, r.electrical.kind, r.electrical.minisub, r.electrical.feeder,
         r.electrical.supplyCable, r.electrical.breakerState,
         r.water.sn, r.water.kind, r.standNote)
  }

  /** One submission; immutable once built. */
  datatype Payload = Payload(meta: Meta, record: Record, requestId: string)
}

=== FILE: storage.dfy ===
/** The key/value store `LS` (app.js:26-34) in its `localStorage` form, and the
    per-user namespacing of keys `userKey` (app.js:43-46). */
module Storage {
  import opened Base
  import opened Records
  import opened Config

  /** The shapes of value the application stores. */
  datatype Value =
    | QueueVal(items: seq<Payload>)            // an outbox
    | LedgerVal(counts: map<string, nat>)      // a sent log: date label -> deliveries
    | UserVal(session: Session)                // "currentUser"
    | SettingsVal(settings: Settings)          // "settings"
    | DraftVal(form: Form, ts: string)         // a draft
    | GpsVal(fix: GpsFix)                      // a last GPS fix
    | TextVal(text: string)                    // "client_id"

  type Store = map<string, Value>

  /** `LS.get`: the stored value, or null (None) for a missing key. */
  function Get(st: Store, k: string): (r: Option<Value>)
    ensures r.Some? <==> k in st
    ensures r.Some? ==> r.value == st[k]
  {
    if k in st then Some(st[k]) else None
  }

  /** `LS.set`: overwrite the value under `k`; no other key changes. */
  function Set(st: Store, k: string, v: Value): (r: Store)
    ensures Get(r, k) == Some(v)
    ensures forall k' :: k' != k ==> Get(r, k') == Get(st, k')
  {
    st[k := v]
  }

  /** `LS.del`: remove `k`; no other key changes. */
  function Del(st: Store, k: string): (r: Store)
    ensures Get(r, k) == None
    ensures forall k' :: k' != k ==> Get(r, k') == Get(st, k')
  {
    st - {k}
  }

  /** Only the keys in `keys` may differ between `st` and `st'`. */
  ghost predicate Frame(st: Store, st': Store, keys: set<string>) {
    forall k :: k !in keys ==> Get(st', k) == Get(st, k)
  }

  lemma FrameTrans(st1: Store, st2: Store, st3: Store, keys: set<string>)
    requires Frame(st1, st2, keys) && Frame(st2, st3, keys)
    ensures Frame(st1, st3, keys)
  {
  }

  lemma FrameWiden(st: Store, st': Store, keys: set<string>, more: set<string>)
    requires Frame(st, st', keys) && keys <= more
    ensures Frame(st, st', more)
  {
  }

  // Global keys.
  const SettingsKey: string := "settings"
  const CurrentUserKey: string := "currentUser"
  const ClientIdKey: string := "client_id"

  // Logical keys that are namespaced per user.
  const OutboxName: string := "outbox"
  const DraftName: string := "draft"
  const SentLogName: string := "sentLog"
  const LastGpsName: string := "lastGPS"

  /** A logical key with neither of the two separator characters. */
  predicate Plain(k: string) {
    '@' !in k && ':' !in k
  }

  lemma NamesArePlain()
    ensures Plain(OutboxName) && Plain(DraftName) && Plain(SentLogName) && Plain(LastGpsName)
  {
  }

  /** The signed-in user name, if `currentUser` holds one that is non-empty;
      None stands for the shared guest namespace. */
  function ActorOf(st: Store): (r: Option<string>)
    ensures r.Some? ==> r.value != "" && Get(st, CurrentUserKey) != None
    ensures r.Some? ==>
      Get(st, CurrentUserKey).value.UserVal? && Get(st, CurrentUserKey).value.session.u == r.value
    ensures (Get(st, CurrentUserKey).Some? && Get(st, CurrentUserKey).value.UserVal?
             && Get(st, CurrentUserKey).value.session.u != "")
            ==> r == Some(Get(st, CurrentUserKey).value.session.u)
  {
    match Get(st, CurrentUserKey)
    case Some(UserVal(session)) => if session.u != "" then Some(session.u) else None
    case _ => None
  }

  /** userKey for a given actor: `k@user` or `guest:k`. */
  function UserKey(actor: Option<string>, k: string): (r: string)
    ensures |r| == |k| + if actor.Some? then 1 + |actor.value| else 6
  {
    if actor.Some? then k + "@" + actor.value else "guest:" + k
  }

  /** A namespaced key splits back into its parts: the logical key, '@' and
      the user name, or the "guest:" prefix and the logical key. */
  lemma UserKeyParts(actor: Option<string>, k: string)
    ensures var r := UserKey(actor, k);
      actor.Some? ==>
        |r| == |k| + 1 + |actor.value| && r[..|k|] == k && r[|k|] == '@' && r[|k| + 1..] == actor.value
    ensures var r := UserKey(actor, k);
      actor.None? ==> |r| == 6 + |k| && r[..6] == "guest:" && r[6..] == k
  {
  }

  /** userKey as the application evaluates it, against the stored user. */
  function ScopedKey(st: Store, k: string): string {
    UserKey(ActorOf(st), k)
  }

  /** logout (app.js:340): forget the signed-in user; every namespaced key
      now resolves to the guest namespace. */
  function SignOut(st: Store): (r: Store)
    ensures ActorOf(r) == None
    ensures Frame(st, r, {CurrentUserKey})
  {
    Del(st, CurrentUserKey)
  }

  /** On plain logical keys the namespacing is injective: two actors, or two
      logical keys, never share a stored key, and no user key is a guest
      key. */
  lemma UserKeyInjective(a1: Option<string>, k1: string, a2: Option<string>, k2: string)
    requires Plain(k1) && Plain(k2)
    ensures UserKey(a1, k1) == UserKey(a2, k2) <==> a1 == a2 && k1 == k2
  {
    var s1 := UserKey(a1, k1);
    var s2 := UserKey(a2, k2);
    if s1 == s2 {
      if a1.Some? && a2.Some? {
        UserKeyLayout(k1, a1.value);
        UserKeyLayout(k2, a2.value);
        assert |k1| == |k2|;
        assert k1 == s1[..|k1|] && k2 == s2[..|k2|];
        assert a1.value == s1[|k1| + 1..] && a2.value == s2[|k2| + 1..];
      } else if a1.Some? {
        UserKeyLayout(k1, a1.value);
        GuestKeyHasNoAt(k2, |k1|);
        assert false;
      } else if a2.Some? {
        UserKeyLayout(k2, a2.value);
        GuestKeyHasNoAt(k1, |k2|);
        assert false;
      } else {
        assert k1 == s1[6..] && k2 == s2[6..];
      }
    }
  }

  /** A user key has its first '@' right after the logical key. */
  lemma UserKeyLayout(k: string, name: string)
    requires Plain(k)
    ensures UserKey(Some(name), k)[|k|] == '@'
    ensures forall i :: 0 <= i < |k| ==> UserKey(Some(name), k)[i] != '@'
  {
    forall i | 0 <= i < |k| ensures UserKey(Some(name), k)[i] != '@' {
      assert UserKey(Some(name), k)[i] == k[i];
    }
  }

  /** A guest key of a plain logical key contains no '@'. */
  lemma GuestKeyHasNoAt(k: string, i: int)
    requires Plain(k) && 0 <= i < |UserKey(None, k)|
    ensures UserKey(None, k)[i] != '@'
  {
    if i >= 6 {
      assert UserKey(None, k)[i] == k[i - 6];
    }
  }

  /** Namespaced keys never collide with the three global keys. */
  lemma ScopedKeyNotGlobal(a: Option<string>, k: string)
    requires Plain(k)
    ensures UserKey(a, k) != SettingsKey
    ensures UserKey(a, k) != CurrentUserKey
    ensures UserKey(a, k) != ClientIdKey
  {
    var s := UserKey(a, k);
    if a.Some? {
      assert s[|k|] == '@';
      assert '@' !in SettingsKey && '@' !in CurrentUserKey && '@' !in ClientIdKey;
    } else {
      assert s[5] == ':';
    }
  }

  // Readers. A value of another shape under a key reads as absent, as `|| []`
  // and `|| {}` make a missing value read.

  function OutboxAt(st: Store, key: string): seq<Payload> {
    match Get(st, key)
    case Some(QueueVal(items)) => items
    case _ => []
  }

  function LedgerAt(st: Store, key: string): map<string, nat> {
    match Get(st, key)
    case Some(LedgerVal(counts)) => counts
    case _ => map[]
  }

  /** The outbox of an actor. */
  function Outbox(st: Store, actor: Option<string>): seq<Payload> {
    OutboxAt(st, UserKey(actor, OutboxName))
  }

  /** The sent log of an actor. */
  function Ledger(st: Store, actor: Option<string>): map<string, nat> {
    LedgerAt(st, UserKey(actor, SentLogName))
  }

  /** `log[day] || 0`. */
  function Count(log: map<string, nat>, day: string): nat {
    if day in log then log[day] else 0
  }

  /** `LS.get('settings') || {}`. */
  function SettingsOf(st: Store): Settings {
    match Get(st, SettingsKey)
    case Some(SettingsVal(s)) => s
    case _ => Empty
  }

  /** Writes the settings record; nobody is signed in or out by it. */
  function PutSettings(st: Store, s: Settings): (r: Store)
    ensures SettingsOf(r) == s
    ensures Frame(st, r, {SettingsKey})
    ensures ActorOf(r) == ActorOf(st)
  {
    var r := Set(st, SettingsKey, SettingsVal(s));
    assert Get(r, CurrentUserKey) == Get(st, CurrentUserKey);
    r
  }

  /** What a frame says about the readers: a global record, or an actor's
      outbox or sent log, is unchanged when its key is outside the frame. */
  lemma FrameReaders(st: Store, st': Store, keys: set<string>, b: Option<string>)
    requires Frame(st, st', keys)
    ensures CurrentUserKey !in keys ==> ActorOf(st') == ActorOf(st)
    ensures SettingsKey !in keys ==> SettingsOf(st') == SettingsOf(st)
    ensures UserKey(b, OutboxName) !in keys ==> Outbox(st', b) == Outbox(st, b)
    ensures UserKey(b, SentLogName) !in keys ==> Ledger(st', b) == Ledger(st, b)
  {
    assert Get(st', CurrentUserKey) == Get(st, CurrentUserKey) || CurrentUserKey in keys;
    assert Get(st', SettingsKey) == Get(st, SettingsKey) || SettingsKey in keys;
    assert Get(st', UserKey(b, OutboxName)) == Get(st, UserKey(b, OutboxName))
      || UserKey(b, OutboxName) in keys;
    assert Get(st', UserKey(b, SentLogName)) == Get(st, UserKey(b, SentLogName))
      || UserKey(b, SentLogName) in keys;
  }

  /** A change confined to one actor's outbox, sent log and draft is
      invisible to every other actor, and does not change who is signed in
      or the global settings. */
  lemma Isolation(st: Store, st': Store, a: Option<string>)
    requires Frame(st, st', {UserKey(a, OutboxName), UserKey(a, SentLogName), UserKey(a, DraftName)})
    ensures forall b :: b != a ==> Outbox(st', b) == Outbox(st, b) && Ledger(st', b) == Ledger(st, b)
    ensures ActorOf(st') == ActorOf(st)
    ensures SettingsOf(st') == SettingsOf(st)
  {
    NamesArePlain();
    forall b | b != a
      ensures Outbox(st', b) == Outbox(st, b) && Ledger(st', b) == Ledger(st, b)
    {
      UserKeyInjective(b, OutboxName, a, OutboxName);
      UserKeyInjective(b, OutboxName, a, SentLogName);
      UserKeyInjective(b, OutboxName, a, DraftName);
      UserKeyInjective(b, SentLogName, a, OutboxName);
      UserKeyInjective(b, SentLogName, a, SentLogName);
      UserKeyInjective(b, SentLogName, a, DraftName);
    }
    ScopedKeyNotGlobal(a, OutboxName);
    ScopedKeyNotGlobal(a, SentLogName);
    ScopedKeyNotGlobal(a, DraftName);
    assert Get(st', CurrentUserKey) == Get(st, CurrentUserKey);
    assert Get(st', SettingsKey) == Get(st, SettingsKey);
  }
}

=== FILE: submission.dfy ===
/** The capture form's submit handler onSubmit (app.js:466-520) and the
    helpers it runs against the store: ensureClientId (app.js:37-42) and
    resetForm (app.js:151-161). The send is an outcome passed in; the clock,
    the user agent and the ids the handler generates are fields of a Context. */
module Submission {
  import opened Base
  import opened Order
  import opened Config
  import opened Records
  import opened Storage
  import opened Queue
  import opened Catalog

  /** What the handler takes from the environment: the ISO timestamp, the
      date label of the day of delivery, `navigator.userAgent`, the id
      `makeId()` gives the request, and the one it would give a new client. */
  datatype Context = Context(
    now: string, today: string, userAgent: string, requestId: string, freshClientId: string)

  /** The four ways a submission ends (the alerts of app.js:503, 508, 516,
      518). */
  datatype Outcome = Rejected | Delivered | QueuedNoEndpoint | QueuedAfterFailure

  datatype Submission = Submission(store: Store, outcome: Outcome, payload: Payload)

  /** `val(id)` for every field (app.js:146): the form as the handler reads
      it, each value trimmed. */
  function ReadForm(raw: Form): (v: Form)
    ensures Clean(v)
    ensures v.stand == "" <==> AllSpace(raw.stand)
    ensures v.area == "" <==> AllSpace(raw.area)
    ensures v.street == "" <==> AllSpace(raw.street)
    ensures v.minisub == "" <==> AllSpace(raw.minisub)
    ensures v.supplyCable == "" <==> AllSpace(raw.supplyCable)
    ensures v.breakerState == "" <==> AllSpace(raw.breakerState)
  {
    Form(Trim(raw.stand), Trim(raw.area), Trim(raw.street), Trim(raw.clientInfo),
         Trim(raw.elecSn), Trim(raw.elecType), Trim(raw.minisub), Trim(raw.feeder),
         Trim(raw.supplyCable), Trim(raw.breakerState),
         Trim(raw.waterSn), Trim(raw.waterType), Trim(raw.standNote))
  }

  /** Every field is free of surrounding whitespace. */
  predicate Clean(v: Form) {
    && IsTrimmed(v.stand) && IsTrimmed(v.area) && IsTrimmed(v.street) && IsTrimmed(v.clientInfo)
    && IsTrimmed(v.elecSn) && IsTrimmed(v.elecType) && IsTrimmed(v.minisub) && IsTrimmed(v.feeder)
    && IsTrimmed(v.supplyCable) && IsTrimmed(v.breakerState)
    && IsTrimmed(v.waterSn) && IsTrimmed(v.waterType) && IsTrimmed(v.standNote)
  }

  /** Every field of `v` is the matching field of `raw` with the whitespace
      at both ends removed. */
  ghost predicate ReadFrom(v: Form, raw: Form) {
    && Stripped(v.stand, raw.stand) && Stripped(v.area, raw.area)
    && Stripped(v.street, raw.street) && Stripped(v.clientInfo, raw.clientInfo)
    && Stripped(v.elecSn, raw.elecSn) && Stripped(v.elecType, raw.elecType)
    && Stripped(v.minisub, raw.minisub) && Stripped(v.feeder, raw.feeder)
    && Stripped(v.supplyCable, raw.supplyCable) && Stripped(v.breakerState, raw.breakerState)
    && Stripped(v.waterSn, raw.waterSn) && Stripped(v.waterType, raw.waterType)
    && Stripped(v.standNote, raw.standNote)
  }

  /** Every field of the form as read is its typed value stripped of
      surrounding whitespace. */
  lemma ReadFormStrips(raw: Form)
    ensures ReadFrom(ReadForm(raw), raw)
  {
    TrimStrips(raw.stand); TrimStrips(raw.area); TrimStrips(raw.street);
    TrimStrips(raw.clientInfo); TrimStrips(raw.elecSn); TrimStrips(raw.elecType);
    TrimStrips(raw.minisub); TrimStrips(raw.feeder); TrimStrips(raw.supplyCable);
    TrimStrips(raw.breakerState); TrimStrips(raw.waterSn); TrimStrips(raw.waterType);
    TrimStrips(raw.standNote);
  }

  /** The form as read is the only form read from `raw`. */
  lemma ReadFormUnique(v: Form, raw: Form)
    requires ReadFrom(v, raw)
    ensures v == ReadForm(raw)
  {
    StrippedUnique(v.stand, raw.stand); StrippedUnique(v.area, raw.area);
    StrippedUnique(v.street, raw.street); StrippedUnique(v.clientInfo, raw.clientInfo);
    StrippedUnique(v.elecSn, raw.elecSn); StrippedUnique(v.elecType, raw.elecType);
    StrippedUnique(v.minisub, raw.minisub); StrippedUnique(v.feeder, raw.feeder);
    StrippedUnique(v.supplyCable, raw.supplyCable); StrippedUnique(v.breakerState, raw.breakerState);
    StrippedUnique(v.waterSn, raw.waterSn); StrippedUnique(v.waterType, raw.waterType);
    StrippedUnique(v.standNote, raw.standNote);
  }

  /** The form as the handler reads it, with the gate of app.js:502 read
      back onto the fields as typed. */
  method ReadFields(raw: Form) returns (v: Form)
    ensures v == ReadForm(raw)
    ensures MissingRequired(v) <==> BlankRequired(raw)
  {
    v := ReadForm(raw);
  }

  /** Reading a form that was read already changes nothing. */
  lemma ReadFormIdempotent(raw: Form)
    ensures ReadForm(ReadForm(raw)) == ReadForm(raw)
  {
    var v := ReadForm(raw);
    TrimOfTrimmed(v.stand); TrimOfTrimmed(v.area); TrimOfTrimmed(v.street);
    TrimOfTrimmed(v.clientInfo); TrimOfTrimmed(v.elecSn); TrimOfTrimmed(v.elecType);
    TrimOfTrimmed(v.minisub); TrimOfTrimmed(v.feeder); TrimOfTrimmed(v.supplyCable);
    TrimOfTrimmed(v.breakerState); TrimOfTrimmed(v.waterSn); TrimOfTrimmed(v.waterType);
    TrimOfTrimmed(v.standNote);
  }

  /** One of the six required values is empty (app.js:502). */
  predicate MissingRequired(v: Form) {
    || v.stand == "" || v.area == "" || v.street == ""
    || v.minisub == "" || v.supplyCable == "" || v.breakerState == ""
  }

  /** One of the six required fields, as typed, holds nothing but
      whitespace. */
  ghost predicate BlankRequired(raw: Form) {
    || AllSpace(raw.stand) || AllSpace(raw.area) || AllSpace(raw.street)
    || AllSpace(raw.minisub) || AllSpace(raw.supplyCable) || AllSpace(raw.breakerState)
  }

  /** The six required fields of a record are non-empty. */
  predicate Complete(r: Record) {
    && r.stand != "" && r.area != "" && r.street != ""
    && r.electrical.minisub != "" && r.electrical.supplyCable != ""
    && r.electrical.breakerState != ""
  }

  /** The stored client id; "" when none (or an empty one) is stored. */
  function StoredClientId(st: Store): string {
    match Get(st, ClientIdKey)
    case Some(TextVal(id)) => id
    case _ => ""
  }

  /** A store together with the client id handed out against it. */
  datatype Issued = Issued(store: Store, id: string)

  /** ensureClientId: a stored non-empty id is kept and returned; otherwise
      `newId` is stored and returned. Only "client_id" may change. */
  function EnsureClientId(st: Store, newId: string): (r: Issued)
    ensures StoredClientId(r.store) == r.id
    ensures StoredClientId(st) != "" ==> r == Issued(st, StoredClientId(st))
    ensures StoredClientId(st) == "" ==> r.id == newId
    ensures Frame(st, r.store, {ClientIdKey})
    ensures ActorOf(r.store) == ActorOf(st) && SettingsOf(r.store) == SettingsOf(st)
  {
    var id := StoredClientId(st);
    if id != "" then Issued(st, id)
    else
      var r := Set(st, ClientIdKey, TextVal(newId));
      FrameReaders(st, r, {ClientIdKey}, None);
      Issued(r, newId)
  }

  /** Once an id is handed out it is handed out again, whatever new id a
      later call would have used. */
  lemma ClientIdStable(st: Store, id1: string, id2: string)
    requires id1 != ""
    ensures var i := EnsureClientId(st, id1);
      EnsureClientId(i.store, id2) == i
  {
  }

  /** The last GPS fix recorded for the signed-in actor, if any. */
  function LastGps(st: Store): Option<GpsFix> {
    match Get(st, ScopedKey(st, LastGpsName))
    case Some(GpsVal(fix)) => Some(fix)
    case _ => None
  }

  /** The payload of app.js:472-500 from the normalised settings `s`, the
      store `st` it is read against, the read form `v` and the client id. */
  function BuildPayload(s: Settings, st: Store, v: Form, ctx: Context, clientId: string): (p: Payload)
    ensures Complete(p.record) <==> !MissingRequired(v)
    ensures p.meta.user == ActorOf(st) && p.meta.clientId == clientId
    ensures p.meta.version == SchemaVersion && p.requestId == ctx.requestId
    ensures p.meta.team.Some? <==> s.team.Some? && s.team.value != ""
    ensures p.meta.team.Some? ==> p.meta.team == s.team
    ensures p.meta.submittedAt == ctx.now && p.meta.ua == ctx.userAgent && p.meta.timezone == Tz
    // The record holds the form as read and the actor's last fix.
    ensures FormOf(p.record) == v
    ensures p.record.gps == LastGps(st)
  {
    var team := TextOr(s.team);
    Payload(
      Meta(SchemaVersion, ctx.now, Tz, if team == "" then None else Some(team),
           ctx.userAgent, ActorOf(st), clientId),
      Record(v.stand, v.area, v.street, v.clientInfo,
             Electrical(v.elecSn, v.elecType, v.minisub, v.feeder, v.supplyCable, v.breakerState),
             Water(v.waterSn, v.waterType),
             v.standNote, LastGps(st)),
      ctx.requestId)
  }

  /** The part of onSubmit before the gate: the settings are normalised and
      written back, the client id is ensured, the payload is built. */
  datatype Prepared = Prepared(store: Store, payload: Payload, url: string)

  method Prepare(st: Store, v: Form, ctx: Context, less: (string, string) -> bool)
    returns (r: Prepared)
    requires StrictTotalOrder(less)
    ensures Frame(st, r.store, {SettingsKey, ClientIdKey})
    ensures SettingsOf(r.store) == EnsureSettings(SettingsOf(st), less)
    ensures r.url == SendUrl(SettingsOf(st))
    ensures ActorOf(r.store) == ActorOf(st)
    ensures r.payload.meta.user == ActorOf(st)
    ensures Complete(r.payload.record) <==> !MissingRequired(v)
    ensures StoredClientId(st) != "" ==> r.payload.meta.clientId == StoredClientId(st)
    ensures StoredClientId(st) == "" ==> r.payload.meta.clientId == ctx.freshClientId
    ensures StoredClientId(r.store) == r.payload.meta.clientId
    ensures FormOf(r.payload.record) == v
    ensures r.payload.record.gps == LastGps(st)
    ensures r.payload.meta.team.Some? <==> TextOr(SettingsOf(st).team) != ""
    ensures r.payload.meta.team.Some? ==> r.payload.meta.team == SettingsOf(st).team
  {
    var s := EnsureSettings(SettingsOf(st), less);
    var st1 := PutSettings(st, s);
    assert LastGps(st1) == LastGps(st) by {
      NamesArePlain();
      ScopedKeyNotGlobal(ActorOf(st), LastGpsName);
    }
    assert StoredClientId(st1) == StoredClientId(st) by {
      assert Get(st1, ClientIdKey) == Get(st, ClientIdKey);
    }
    var issued := EnsureClientId(st1, ctx.freshClientId);
    var keys := {SettingsKey, ClientIdKey};
    FrameWiden(st, st1, {SettingsKey}, keys);
    FrameWiden(st1, issued.store, {ClientIdKey}, keys);
    FrameTrans(st, st1, issued.store, keys);
    r := Prepared(issued.store, BuildPayload(s, st1, v, ctx, issued.id), SendUrl(s));
  }

  /** resetForm: the draft of the signed-in actor is deleted, and
      populateTypes runs ensureSettings once more, which writes the settings
      record back normalised. */
  method ResetForm(st: Store, less: (string, string) -> bool) returns (r: Store)
    requires StrictTotalOrder(less)
    ensures Get(r, ScopedKey(st, DraftName)) == None
    ensures SettingsOf(r) == EnsureSettings(SettingsOf(st), less)
    ensures Frame(st, r, {ScopedKey(st, DraftName), SettingsKey})
    ensures ActorOf(r) == ActorOf(st)
  {
    var draft := ScopedKey(st, DraftName);
    var st1 := Del(st, draft);
    r := EnsureStored(st1, less);
    DraftCleared(st, st1, r);
  }

  /** Deleting the signed-in actor's draft and then writing the settings:
      the draft is gone, the settings were read unchanged before the write,
      and nobody was signed in or out. */
  lemma DraftCleared(st: Store, st1: Store, r: Store)
    requires Frame(st, st1, {ScopedKey(st, DraftName)}) && Get(st1, ScopedKey(st, DraftName)) == None
    requires Frame(st1, r, {SettingsKey}) && ActorOf(r) == ActorOf(st1)
    ensures Get(r, ScopedKey(st, DraftName)) == None
    ensures SettingsOf(st1) == SettingsOf(st)
    ensures Frame(st, r, {ScopedKey(st, DraftName), SettingsKey})
    ensures ActorOf(r) == ActorOf(st)
  {
    var draft := ScopedKey(st, DraftName);
    NamesArePlain();
    ScopedKeyNotGlobal(ActorOf(st), DraftName);
    FrameReaders(st, st1, {draft}, None);
    assert Get(r, draft) == Get(st1, draft);
    var keys := {draft, SettingsKey};
    FrameWiden(st, st1, {draft}, keys);
    FrameWiden(st1, r, {SettingsKey}, keys);
    FrameTrans(st, st1, r, keys);
  }

  /** The stored keys a submission by actor `a` may write. */
  function SubmitKeys(a: Option<string>): set<string> {
    {SettingsKey, ClientIdKey, UserKey(a, OutboxName), UserKey(a, SentLogName), UserKey(a, DraftName)}
  }

  /** A write confined to the global settings and client id leaves every
      actor's outbox, sent log and draft, and the signed-in user, as they
      were. */
  lemma GlobalWrite(st: Store, st': Store, b: Option<string>)
    requires Frame(st, st', {SettingsKey, ClientIdKey})
    ensures Outbox(st', b) == Outbox(st, b) && Ledger(st', b) == Ledger(st, b)
    ensures ActorOf(st') == ActorOf(st)
  {
    NamesArePlain();
    ScopedKeyNotGlobal(b, OutboxName);
    ScopedKeyNotGlobal(b, SentLogName);
    FrameReaders(st, st', {SettingsKey, ClientIdKey}, b);
  }

  /** A write confined to `a`'s draft and the settings leaves every outbox
      and sent log as it was. */
  lemma ResetWrite(st: Store, st': Store, a: Option<string>, b: Option<string>)
    requires Frame(st, st', {UserKey(a, DraftName), SettingsKey})
    ensures Outbox(st', b) == Outbox(st, b) && Ledger(st', b) == Ledger(st, b)
  {
    NamesArePlain();
    ScopedKeyNotGlobal(b, OutboxName);
    ScopedKeyNotGlobal(b, SentLogName);
    UserKeyInjective(b, OutboxName, a, DraftName);
    UserKeyInjective(b, SentLogName, a, DraftName);
    FrameReaders(st, st', {UserKey(a, DraftName), SettingsKey}, b);
  }

  /** A write confined to `a`'s outbox changes no sent log and no other
      actor's outbox. */
  lemma OutboxWrite(st: Store, st': Store, a: Option<string>, b: Option<string>)
    requires Frame(st, st', {UserKey(a, OutboxName)})
    ensures Ledger(st', b) == Ledger(st, b)
    ensures b != a ==> Outbox(st', b) == Outbox(st, b)
    ensures Get(st', UserKey(a, DraftName)) == Get(st, UserKey(a, DraftName))
  {
    NamesArePlain();
    UserKeyInjective(b, SentLogName, a, OutboxName);
    UserKeyInjective(b, OutboxName, a, OutboxName);
    UserKeyInjective(a, DraftName, a, OutboxName);
    FrameReaders(st, st', {UserKey(a, OutboxName)}, b);
  }

  /** A write confined to `a`'s sent log changes no outbox and no other
      actor's sent log. */
  lemma LedgerWrite(st: Store, st': Store, a: Option<string>, b: Option<string>)
    requires Frame(st, st', {UserKey(a, SentLogName)})
    ensures Outbox(st', b) == Outbox(st, b)
    ensures b != a ==> Ledger(st', b) == Ledger(st, b)
  {
    NamesArePlain();
    UserKeyInjective(b, OutboxName, a, SentLogName);
    UserKeyInjective(b, SentLogName, a, SentLogName);
    FrameReaders(st, st', {UserKey(a, SentLogName)}, b);
  }

  /** The keys the accepted path of a submission by `a` may write. */
  function SettleKeys(a: Option<string>): set<string> {
    {SettingsKey, UserKey(a, OutboxName), UserKey(a, SentLogName), UserKey(a, DraftName)}
  }

  /** The accepted path of onSubmit (app.js:505-519), from the store `st`
      the preparation left: with no endpoint, or when the POST fails, the
      payload `p` is queued for the actor who submitted it; when it
      succeeds, one delivery is counted for that actor under `today`. Then
      resetForm. */
  method Settle(st: Store, p: Payload, url: string, sendOk: bool, today: string,
                less: (string, string) -> bool) returns (r: Store, outcome: Outcome)
    requires StrictTotalOrder(less)
    ensures outcome == QueuedNoEndpoint <==> url == ""
    ensures outcome == Delivered <==> url != "" && sendOk
    ensures outcome == QueuedAfterFailure <==> url != "" && !sendOk
    ensures Frame(st, r, SettleKeys(ActorOf(st)))
    ensures ActorOf(r) == ActorOf(st)
    ensures SettingsOf(r) == EnsureSettings(SettingsOf(st), less)
    ensures forall b :: b != ActorOf(st) ==>
      Outbox(r, b) == Outbox(st, b) && Ledger(r, b) == Ledger(st, b)
    ensures outcome == Delivered ==>
      Outbox(r, ActorOf(st)) == Outbox(st, ActorOf(st))
      && Count(Ledger(r, ActorOf(st)), today) == Count(Ledger(st, ActorOf(st)), today) + 1
      && forall d :: d != today ==>
           Count(Ledger(r, ActorOf(st)), d) == Count(Ledger(st, ActorOf(st)), d)
    ensures outcome != Delivered ==>
      Outbox(r, ActorOf(st)) == Outbox(st, ActorOf(st)) + [p]
      && Ledger(r, ActorOf(st)) == Ledger(st, ActorOf(st))
    ensures Get(r, UserKey(ActorOf(st), DraftName)) == None
  {
    var a := ActorOf(st);
    var st3: Store;
    var k: string;
    if url == "" {
      st3 := QueueFor(st, a, p);
      outcome := QueuedNoEndpoint;
      k := OutboxName;
    } else {
      st3 := Resume(st, a, p, sendOk, today);
      outcome := if sendOk then Delivered else QueuedAfterFailure;
      k := if sendOk then SentLogName else OutboxName;
    }
    SingleWrite(st, st3, a, k);
    r := ResetForm(st3, less);
    SettleFrame(st, st3, r, a, k);
  }

  /** What onSubmit does once `await sendToWebhook` returns
      (app.js:511-518), for the actor `a` who submitted: a successful send
      counts one delivery under `today` in `a`'s sent log, a failed one
      queues `p` in `a`'s outbox. Nothing else is written. */
  function Resume(st: Store, a: Option<string>, p: Payload, sendOk: bool, today: string): (r: Store)
    ensures sendOk ==>
      && Frame(st, r, {UserKey(a, SentLogName)})
      && Count(Ledger(r, a), today) == Count(Ledger(st, a), today) + 1
      && forall d :: d != today ==> Count(Ledger(r, a), d) == Count(Ledger(st, a), d)
    ensures !sendOk ==>
      Frame(st, r, {UserKey(a, OutboxName)}) && Outbox(r, a) == Outbox(st, a) + [p]
  {
    if sendOk then RecordDelivery(st, a, today) else QueueFor(st, a, p)
  }

  /** The continuation as written: `userKey` is evaluated when the handler
      resumes, so the keys are those of whoever is signed in then. */
  function ResumeAsWritten(st: Store, p: Payload, sendOk: bool, today: string): (r: Store)
    ensures sendOk ==>
      && Frame(st, r, {ScopedKey(st, SentLogName)})
      && Count(Ledger(r, ActorOf(st)), today) == Count(Ledger(st, ActorOf(st)), today) + 1
    ensures !sendOk ==>
      Frame(st, r, {ScopedKey(st, OutboxName)}) && Outbox(r, ActorOf(st)) == Outbox(st, ActorOf(st)) + [p]
  {
    Resume(st, ActorOf(st), p, sendOk, today)
  }

  /** As written: a user who signs out while the POST is awaited has a
      failed submission queued in the guest outbox, or a delivered one
      counted in the guest sent log; their own records do not change. */
  lemma SignOutDuringSubmitMisfiles(st: Store, p: Payload, today: string)
    requires ActorOf(st).Some?
    ensures var r := ResumeAsWritten(SignOut(st), p, false, today);
      Outbox(r, None) == Outbox(st, None) + [p] && Outbox(r, ActorOf(st)) == Outbox(st, ActorOf(st))
    ensures var r := ResumeAsWritten(SignOut(st), p, true, today);
      && Count(Ledger(r, None), today) == Count(Ledger(st, None), today) + 1
      && Ledger(r, ActorOf(st)) == Ledger(st, ActorOf(st))
  {
    var a := ActorOf(st);
    var st1 := SignOut(st);
    NamesArePlain();
    FrameReaders(st, st1, {CurrentUserKey}, a);
    FrameReaders(st, st1, {CurrentUserKey}, None);
    ScopedKeyNotGlobal(a, OutboxName);
    ScopedKeyNotGlobal(a, SentLogName);
    ScopedKeyNotGlobal(None, OutboxName);
    ScopedKeyNotGlobal(None, SentLogName);
    UserKeyInjective(a, OutboxName, None, OutboxName);
    UserKeyInjective(a, SentLogName, None, SentLogName);
    FrameReaders(st1, ResumeAsWritten(st1, p, false, today), {UserKey(None, OutboxName)}, a);
    FrameReaders(st1, ResumeAsWritten(st1, p, true, today), {UserKey(None, SentLogName)}, a);
  }

  /** Corrected: with the keys taken for the actor who submitted, a sign-out
      during the POST leaves the guest records alone, and the submission is
      queued in, or counted against, the submitter's own records. */
  lemma SignOutDuringSubmitFiled(st: Store, p: Payload, today: string)
    requires ActorOf(st).Some?
    ensures var r := Resume(SignOut(st), ActorOf(st), p, false, today);
      Outbox(r, ActorOf(st)) == Outbox(st, ActorOf(st)) + [p] && Outbox(r, None) == Outbox(st, None)
    ensures var r := Resume(SignOut(st), ActorOf(st), p, true, today);
      && Count(Ledger(r, ActorOf(st)), today) == Count(Ledger(st, ActorOf(st)), today) + 1
      && Ledger(r, None) == Ledger(st, None)
  {
    var a := ActorOf(st);
    var st1 := SignOut(st);
    NamesArePlain();
    FrameReaders(st, st1, {CurrentUserKey}, a);
    FrameReaders(st, st1, {CurrentUserKey}, None);
    ScopedKeyNotGlobal(a, OutboxName);
    ScopedKeyNotGlobal(a, SentLogName);
    ScopedKeyNotGlobal(None, OutboxName);
    ScopedKeyNotGlobal(None, SentLogName);
    UserKeyInjective(a, OutboxName, None, OutboxName);
    UserKeyInjective(a, SentLogName, None, SentLogName);
    FrameReaders(st1, Resume(st1, a, p, false, today), {UserKey(a, OutboxName)}, None);
    FrameReaders(st1, Resume(st1, a, p, true, today), {UserKey(a, SentLogName)}, None);
  }

  /** One write to `a`'s outbox or sent log: the signed-in user, the
      settings, the other
      of the two and every other actor's data stay as they were. */
  lemma SingleWrite(st: Store, st3: Store, a: Option<string>, k: string)
    requires k == OutboxName || k == SentLogName
    requires Frame(st, st3, {UserKey(a, k)})
    ensures ActorOf(st3) == ActorOf(st) && SettingsOf(st3) == SettingsOf(st)
    ensures k == OutboxName ==> Ledger(st3, a) == Ledger(st, a)
    ensures k == SentLogName ==> Outbox(st3, a) == Outbox(st, a)
  {
    NamesArePlain();
    ScopedKeyNotGlobal(a, k);
    FrameReaders(st, st3, {UserKey(a, k)}, a);
    if k == OutboxName {
      OutboxWrite(st, st3, a, a);
    } else {
      LedgerWrite(st, st3, a, a);
    }
  }

  /** The frame of the accepted path: a write to `a`'s outbox or sent log,
      then resetForm. */
  lemma SettleFrame(st: Store, st3: Store, r: Store, a: Option<string>, k: string)
    requires k == OutboxName || k == SentLogName
    requires Frame(st, st3, {UserKey(a, k)})
    requires Frame(st3, r, {UserKey(a, DraftName), SettingsKey})
    ensures Frame(st, r, SettleKeys(a))
    ensures Outbox(r, a) == Outbox(st3, a) && Ledger(r, a) == Ledger(st3, a)
    ensures forall b :: b != a ==> Outbox(r, b) == Outbox(st, b) && Ledger(r, b) == Ledger(st, b)
  {
    var keys := SettleKeys(a);
    FrameWiden(st, st3, {UserKey(a, k)}, keys);
    FrameWiden(st3, r, {UserKey(a, DraftName), SettingsKey}, keys);
    FrameTrans(st, st3, r, keys);
    ResetWrite(st3, r, a, a);
    forall b | b != a
      ensures Outbox(r, b) == Outbox(st, b) && Ledger(r, b) == Ledger(st, b)
    {
      if k == OutboxName {
        OutboxWrite(st, st3, a, b);
      } else {
        LedgerWrite(st, st3, a, b);
      }
      ResetWrite(st3, r, a, b);
    }
  }

  /** The rejected path of onSubmit (app.js:502-503): the handler stops
      with the settings and the client id written and nothing else. */
  method Reject(st: Store, prep: Prepared) returns (r: Submission)
    requires Frame(st, prep.store, {SettingsKey, ClientIdKey})
    ensures r == Submission(prep.store, Rejected, prep.payload)
    ensures Frame(st, r.store, SubmitKeys(ActorOf(st)))
    ensures ActorOf(r.store) == ActorOf(st)
    ensures forall b :: Outbox(r.store, b) == Outbox(st, b) && Ledger(r.store, b) == Ledger(st, b)
  {
    r := Submission(prep.store, Rejected, prep.payload);
    GlobalWrite(st, prep.store, ActorOf(st));
    FrameWiden(st, prep.store, {SettingsKey, ClientIdKey}, SubmitKeys(ActorOf(st)));
    forall b ensures Outbox(r.store, b) == Outbox(st, b) && Ledger(r.store, b) == Ledger(st, b) {
      GlobalWrite(st, prep.store, b);
    }
  }

  /** The accepted path of onSubmit seen from the store before the
      preparation: Settle after the settings and the client id were
      written. */
  method Accept(st: Store, prep: Prepared, sendOk: bool, today: string,
                less: (string, string) -> bool) returns (r: Submission)
    requires StrictTotalOrder(less)
    requires Frame(st, prep.store, {SettingsKey, ClientIdKey})
    ensures r.payload == prep.payload && r.outcome != Rejected
    ensures r.outcome == QueuedNoEndpoint <==> prep.url == ""
    ensures r.outcome == Delivered <==> prep.url != "" && sendOk
    ensures r.outcome == QueuedAfterFailure <==> prep.url != "" && !sendOk
    ensures Frame(st, r.store, SubmitKeys(ActorOf(st)))
    ensures ActorOf(r.store) == ActorOf(st)
    ensures StoredClientId(r.store) == StoredClientId(prep.store)
    ensures SettingsOf(r.store) == EnsureSettings(SettingsOf(prep.store), less)
    ensures forall b :: b != ActorOf(st) ==>
      Outbox(r.store, b) == Outbox(st, b) && Ledger(r.store, b) == Ledger(st, b)
    ensures r.outcome == Delivered ==>
      Outbox(r.store, ActorOf(st)) == Outbox(st, ActorOf(st))
      && Count(Ledger(r.store, ActorOf(st)), today) == Count(Ledger(st, ActorOf(st)), today) + 1
      && forall d :: d != today ==>
           Count(Ledger(r.store, ActorOf(st)), d) == Count(Ledger(st, ActorOf(st)), d)
    ensures r.outcome != Delivered ==>
      Outbox(r.store, ActorOf(st)) == Outbox(st, ActorOf(st)) + [prep.payload]
      && Ledger(r.store, ActorOf(st)) == Ledger(st, ActorOf(st))
    ensures Get(r.store, UserKey(ActorOf(st), DraftName)) == None
  {
    var a := ActorOf(st);
    GlobalWrite(st, prep.store, a);
    var st4, outcome := Settle(prep.store, prep.payload, prep.url, sendOk, today, less);
    r := Submission(st4, outcome, prep.payload);
    AcceptedFrame(st, prep.store, st4, a);
    forall b | b != a
      ensures Outbox(st4, b) == Outbox(st, b) && Ledger(st4, b) == Ledger(st, b)
    {
      GlobalWrite(st, prep.store, b);
    }
  }

  /** onSubmit (app.js:466-520) on the form as typed: every field is read
      through `val`, which trims it, so a required field of nothing but
      whitespace rejects the submission. The settings are normalised and the
      client id ensured before the gate, so a rejected form may still write
      both. An accepted form is counted as delivered when an endpoint is set
      and `sendOk` (the outcome of the POST) holds; otherwise it is queued in
      the submitting actor's outbox. Either way resetForm follows. Whatever
      the outcome, only the settings, the client id and the submitting
      actor's own outbox, sent log and draft can change. */
  method OnSubmit(st: Store, raw: Form, ctx: Context, sendOk: bool,
                  less: (string, string) -> bool) returns (r: Submission)
    requires StrictTotalOrder(less)
    ensures r.outcome == Rejected <==> BlankRequired(raw)
    ensures r.outcome == QueuedNoEndpoint <==>
      !BlankRequired(raw) && SendUrl(SettingsOf(st)) == ""
    ensures r.outcome == Delivered <==>
      !BlankRequired(raw) && SendUrl(SettingsOf(st)) != "" && sendOk
    ensures r.outcome == QueuedAfterFailure <==>
      !BlankRequired(raw) && SendUrl(SettingsOf(st)) != "" && !sendOk
    ensures r.outcome != Rejected ==> Complete(r.payload.record)
    ensures r.payload.meta.user == ActorOf(st)
    ensures StoredClientId(st) != "" ==> r.payload.meta.clientId == StoredClientId(st)
    ensures StoredClientId(st) == "" ==> r.payload.meta.clientId == ctx.freshClientId
    ensures StoredClientId(r.store) == r.payload.meta.clientId
    // The payload holds what was typed, trimmed, and the actor's last fix.
    ensures FormOf(r.payload.record) == ReadForm(raw)
    ensures r.payload.record.gps == LastGps(st)
    ensures r.payload.meta.team.Some? <==> TextOr(SettingsOf(st).team) != ""
    ensures r.payload.meta.team.Some? ==> r.payload.meta.team == SettingsOf(st).team
    // Isolation.
    ensures Frame(st, r.store, SubmitKeys(ActorOf(st)))
    ensures ActorOf(r.store) == ActorOf(st)
    ensures forall b :: b != ActorOf(st) ==>
      Outbox(r.store, b) == Outbox(st, b) && Ledger(r.store, b) == Ledger(st, b)
    // Settings: normalised once before the gate, once more by resetForm.
    ensures r.outcome == Rejected ==> SettingsOf(r.store) == EnsureSettings(SettingsOf(st), less)
    ensures r.outcome != Rejected ==>
      SettingsOf(r.store) == EnsureSettings(EnsureSettings(SettingsOf(st), less), less)
    // A rejected submission writes only the two global records.
    ensures r.outcome == Rejected ==> Frame(st, r.store, {SettingsKey, ClientIdKey})
    // The queue and the sent log of the submitting actor.
    ensures r.outcome == Rejected ==>
      Outbox(r.store, ActorOf(st)) == Outbox(st, ActorOf(st))
      && Ledger(r.store, ActorOf(st)) == Ledger(st, ActorOf(st))
    ensures r.outcome == Delivered ==>
      Outbox(r.store, ActorOf(st)) == Outbox(st, ActorOf(st))
      && Count(Ledger(r.store, ActorOf(st)), ctx.today) == Count(Ledger(st, ActorOf(st)), ctx.today) + 1
      && forall d :: d != ctx.today ==>
           Count(Ledger(r.store, ActorOf(st)), d) == Count(Ledger(st, ActorOf(st)), d)
    ensures r.outcome == QueuedNoEndpoint || r.outcome == QueuedAfterFailure ==>
      Outbox(r.store, ActorOf(st)) == Outbox(st, ActorOf(st)) + [r.payload]
      && Ledger(r.store, ActorOf(st)) == Ledger(st, ActorOf(st))
    ensures r.outcome != Rejected ==> Get(r.store, UserKey(ActorOf(st), DraftName)) == None
  {
    var v := ReadFields(raw);
    var prep := Prepare(st, v, ctx, less);
    if MissingRequired(v) {
      r := Reject(st, prep);
    } else {
      r := Accept(st, prep, sendOk, ctx.today, less);
    }
  }

  /** The frames of the two halves of an accepted submission compose into
      the frame of the whole, which leaves the client id as the first half
      left it. */
  lemma AcceptedFrame(st: Store, st2: Store, st4: Store, a: Option<string>)
    requires Frame(st, st2, {SettingsKey, ClientIdKey})
    requires Frame(st2, st4, SettleKeys(a))
    ensures Frame(st, st4, SubmitKeys(a))
    ensures StoredClientId(st4) == StoredClientId(st2)
  {
    FrameWiden(st, st2, {SettingsKey, ClientIdKey}, SubmitKeys(a));
    FrameWiden(st2, st4, SettleKeys(a), SubmitKeys(a));
    FrameTrans(st, st2, st4, SubmitKeys(a));
    NamesArePlain();
    ScopedKeyNotGlobal(a, OutboxName);
    ScopedKeyNotGlobal(a, SentLogName);
    ScopedKeyNotGlobal(a, DraftName);
    assert Get(st4, ClientIdKey) == Get(st2, ClientIdKey);
  }
}

=== FILE: typelists.dfy ===
/** The meter-type catalogues kept in the settings record (app.js:85-105,
    436-463). The electrical catalogue is kept duplicate-free and sorted, with
    the catch-all entry "Unknown" exactly once and last; the water catalogue is
    a plain list that only grows by appending absent names. */
module TypeLists {
  import opened Base
  import opened Order

  const Unknown: string := "Unknown"

  const DefaultElec: seq<string> := [
    "Actaris", "Ampy", "CBI", "Econ", "Enligt", "Hexing", "Ihemeter 3PH WC",
    "Kamstrup 1PH", "Kamstrup 3PH", "L+G Cashpower", "L+G E460", "TSK/3",
    "VC1800", "VC3000", "VC3100", "Unknown"]

  const DefaultWater: seq<string> := ["Lesira", "Kent", "Sensus", "Elster"]

  /** "Unknown" occurs exactly once, as the last entry. */
  ghost predicate UnknownLastOnce(xs: seq<string>) {
    |xs| > 0 && xs[|xs| - 1] == Unknown && Unknown !in xs[..|xs| - 1]
  }

  /** The shape of a normalised electrical catalogue: the named types strictly
      sorted (hence duplicate-free), then "Unknown". */
  ghost predicate ElecListOk(xs: seq<string>, less: (string, string) -> bool) {
    UnknownLastOnce(xs) && StrictlySorted(xs[..|xs| - 1], less)
  }

  lemma DefaultElecShape()
    ensures NoDup(DefaultElec) && UnknownLastOnce(DefaultElec)
  {
  }

  /** "Unknown" is one of the defaults. */
  lemma UnknownIsDefault()
    ensures Unknown in DefaultElec
  {
    assert DefaultElec[15] == Unknown;
  }

  /** `[...new Set(xs)]`: the first occurrence of each element, in order. */
  function Dedup(xs: seq<string>): (r: seq<string>)
    ensures NoDup(r)
    ensures forall x :: x in r <==> x in xs
    ensures NoDup(xs) ==> r == xs
  {
    if |xs| == 0 then []
    else
      var init := xs[..|xs| - 1];
      var last := xs[|xs| - 1];
      var d := Dedup(init);
      assert xs == init + [last];
      if last in d then d else d + [last]
  }

  /** `xs.filter(x => x !== v)`. */
  function Without(xs: seq<string>, v: string): (r: seq<string>)
    ensures forall x :: x in r <==> x in xs && x != v
    ensures NoDup(xs) ==> NoDup(r)
    ensures v !in xs ==> r == xs
  {
    if |xs| == 0 then []
    else
      var rest := Without(xs[1..], v);
      assert xs == [xs[0]] + xs[1..];
      assert NoDup(xs) ==> xs[0] !in xs[1..] by {
        if NoDup(xs) { HeadNotInTail(xs); }
      }
      if xs[0] == v then rest else [xs[0]] + rest
  }

  /** `xs.splice(i, 1)` with JavaScript's reading of the start index: a
      negative index counts from the end (clamped at 0), an index at or past
      the end removes nothing. Returns the list that remains. */
  function Splice(xs: seq<string>, i: int): (r: seq<string>)
    ensures 0 <= i < |xs| ==> r == xs[..i] + xs[i + 1..]
    ensures -|xs| <= i < 0 ==> r == xs[..|xs| + i] + xs[|xs| + i + 1..]
    ensures i >= |xs| ==> r == xs
    ensures i < -|xs| && |xs| > 0 ==> r == xs[1..]
    ensures |xs| == 0 ==> r == []
  {
    var start := if i < 0 then (if |xs| + i < 0 then 0 else |xs| + i) else i;
    if start < |xs| then xs[..start] + xs[start + 1..] else xs
  }

  /** Splicing only removes. */
  lemma SpliceSubset(xs: seq<string>, i: int, x: string)
    requires x in Splice(xs, i)
    ensures x in xs
  {
    var r := Splice(xs, i);
    var k :| 0 <= k < |r| && r[k] == x;
    var start := if i < 0 then (if |xs| + i < 0 then 0 else |xs| + i) else i;
    if start < |xs| {
      if k < start { assert xs[k] == x; } else { assert xs[k + 1] == x; }
    }
  }

  /** The array branch of ensureSettings (app.js:92-93): merge in the
      defaults, drop duplicates and "Unknown", sort, append "Unknown". */
  function MergeElec(xs: seq<string>, less: (string, string) -> bool): (r: seq<string>)
    requires StrictTotalOrder(less)
    ensures ElecListOk(r, less)
    ensures forall x :: x in r <==> x in xs || x in DefaultElec
  {
    var named := Without(Dedup(xs + DefaultElec), Unknown);
    var sorted := Sort(named, less);
    forall x ensures x in sorted <==> x in named { SortElements(named, less, x); }
    assert (sorted + [Unknown])[..|sorted|] == sorted;
    sorted + [Unknown]
  }

  /** The list built by addElecType for a new name `v` other than "Unknown"
      (app.js:440-442). */
  function AddToElec(xs: seq<string>, v: string, less: (string, string) -> bool): (r: seq<string>)
    requires StrictTotalOrder(less)
    requires v != Unknown
    ensures ElecListOk(r, less)
    ensures forall x :: x in r <==> x in xs || x == v || x == Unknown
  {
    var named := Dedup(Without(xs, Unknown) + [v]);
    var sorted := Sort(named, less);
    forall x ensures x in sorted <==> x in named { SortElements(named, less, x); }
    assert (sorted + [Unknown])[..|sorted|] == sorted;
    sorted + [Unknown]
  }

  /** The list left by delElecType (app.js:450-452): splice out index `i`,
      restore "Unknown" if it went, then dedupe, sort and append "Unknown". */
  function DelFromElec(xs: seq<string>, i: int, less: (string, string) -> bool): (r: seq<string>)
    requires StrictTotalOrder(less)
    ensures ElecListOk(r, less)
    ensures forall x :: x in r <==> x in Splice(xs, i) || x == Unknown
  {
    var ys := Splice(xs, i);
    var zs := if Unknown in ys then ys else ys + [Unknown];
    var named := Dedup(Without(zs, Unknown));
    var sorted := Sort(named, less);
    forall x ensures x in sorted <==> x in named { SortElements(named, less, x); }
    assert (sorted + [Unknown])[..|sorted|] == sorted;
    sorted + [Unknown]
  }

  /** A normalised electrical catalogue is determined by its elements. */
  lemma ElecListsEqual(a: seq<string>, b: seq<string>, less: (string, string) -> bool)
    requires StrictTotalOrder(less)
    requires ElecListOk(a, less) && ElecListOk(b, less)
    requires forall x :: x in a <==> x in b
    ensures a == b
  {
    var pa := a[..|a| - 1];
    var pb := b[..|b| - 1];
    assert a == pa + [Unknown];
    assert b == pb + [Unknown];
    forall x ensures x in pa <==> x in pb {
      assert x in a <==> x in pa || x == Unknown;
      assert x in b <==> x in pb || x == Unknown;
    }
    SortedUnique(pa, pb, less);
  }

  /** Merging the defaults into a catalogue that is already normalised and
      already holds them changes nothing. */
  lemma MergeElecFixpoint(xs: seq<string>, less: (string, string) -> bool)
    requires StrictTotalOrder(less)
    requires ElecListOk(xs, less)
    requires forall d :: d in DefaultElec ==> d in xs
    ensures MergeElec(xs, less) == xs
  {
    ElecListsEqual(MergeElec(xs, less), xs, less);
  }
}
